=== FILE: README.md ===
# Include graph builder, modelled in Dafny

`graph.py` scans C and C++ source trees, reads every `#include` line of every
matched file, resolves each included name against a list of search prefixes,
and records the result as a graph: one node per file (labelled with its name
and grouped by its directories), one edge per include. This project models
that core as pure functions over immutable values and proves what it
guarantees.

- `wrappers.dfy` (`Wrappers`): `Option` and `Result`.
- `pystr.dfy` (`PyStr`): `str.split`, `str.join` and list slicing with
  CPython's rules for negative and out-of-range bounds.
- `posixpath.dfy` (`PosixPath`): `os.path.basename` and `os.path.dirname`
  for `/`-separated paths.
- `platform.dfy` (`Platform`): the environment as a value: `os.path.join`,
  `realpath`, `exists`, `isdir`, the file listing, reading a file's lines, and
  the order in which a Python set is iterated. Every property holds for every
  such environment, except that `Walk.StepCovers`, `Walk.ScanCovers`,
  `Walk.StepSize`, `Walk.FirstScanSize`, `Walk.ScanSizes`, `Walk.StepNodes`,
  `Walk.ScanNodes`, `Walk.StepEdges`, `Walk.ScanEdges` and
  `Walk.WalkFromEmpty` also require set iteration to visit every element
  exactly once (`EnumeratesSets`), as Python's does.
- `directive.dfy` (`Directive`): the pattern `^#include ["<](.*)[">]$` as
  `re.match` applies it to one line.
- `resolve.dfy` (`Resolve`): `try_prefixes` and `get_includes`.
- `graph.dfy` (`IncludeGraph`): the `Graph` class: `add`,
  `_get_or_add_node`, `_add_node` (id, size, label, group) and `_add_edge`.
- `walk.dfy` (`Walk`): the loops of `walk`, and the prefix list the command
  line builds.

Where the behaviour of the code differs from what its command-line options
and their help texts (graph.py:190-229) suggest, the model follows the code:

- The `--relation` setting, "the relation of edges" with the choices
  `includes` and `included-by` (graph.py:220-223), never changes an edge.
  `_add_edge` stores `source['id']` and `target['id']` before it swaps its
  local variables, so every edge points from the file to the file it
  includes. `AddIgnoresRelation` and `TwoFiles` state this.
- The search path of every file is the real path of the directory being
  scanned, followed by the configured prefixes. It is not the file's own
  directory.
- A file that cannot be opened or read is not skipped. `open` raises and the
  whole walk ends; `Walk.Scan` returns `Err` with that file's path.
- `--group-granularity`, "how coarse to group nodes (by folder)"
  (graph.py:224-227), accepts a negative or oversized value. The window
  `dirs[begin:begin + 2]` then follows Python's slicing rules, which can
  select directories near the root or nothing at all (`GroupBeyondDepth`,
  `GroupWrapsAround`).
- The group is always at most two directory names, whatever the
  granularity.
- A scanned file's size is the number of distinct includes of its last scan.
  Visiting a file again (under another directory or pattern) overwrites it;
  being registered as someone's include never changes an existing node, so
  the result does not depend on the order of the sets (`Walk.ScanSizes`).

## Model

| member | source | states |
|---|---|---|
| PyStr.Join | graph.py:97 | `sep.join(pieces)`: the pieces with one separator between neighbours; `SplitJoin` states it is undone by `Split` |
| PyStr.Split | graph.py:95 | `str.split` gives at least one piece, no piece holds the separator, and joining the pieces gives the string back |
| PyStr.SplitJoin | graph.py:95-97 | splitting a join of separator-free pieces gives the same pieces back (round trip) |
| PyStr.SliceBound | graph.py:96-97 | a slice bound counts from the end when negative and is clamped to the list |
| PyStr.Slice | graph.py:97 | `dirs[start:stop]` picks the elements from the normalised start on, as many as lie before the normalised stop; in-range bounds slice as written |
| PosixPath.TailStart | graph.py:92 | the last component starts just after the last separator, and no separator follows |
| PosixPath.StripTrailing | graph.py:95 | removing trailing separators leaves a prefix that does not end in one, and only separators were removed |
| PosixPath.Basename | graph.py:92 | the basename is the separator-free tail after the last separator |
| PosixPath.Dirname | graph.py:95 | the dirname is a prefix of the path, separated from the basename only by separators; it ends in no separator, except that a head made only of separators (as in `/x`) is kept whole |
| Directive.IncludeToken | graph.py:137-143 | a matched line starts with `#include ` and an opener and, without its final line break, ends in a closer; the token is exactly what lies between them and holds no line break |
| Directive.MatchRender | graph.py:137 | every directive line, with either delimiter on each side and with or without its line break, is matched and yields its token |
| Directive.MatchIsRendering | graph.py:137 | every matched line is such a directive line for the token found |
| Directive.MatchIff | graph.py:137-142 | a line yields token `t` exactly when it is a directive line for `t` |
| Directive.RejectsLooseLines | graph.py:137 | indented lines, trailing comments, a double space and a bare `#include "` are not directives |
| Directive.AcceptsDirectives | graph.py:137 | mismatched delimiters, an empty token and a final line break are accepted |
| Resolve.Candidate | graph.py:129 | the path a prefix proposes: `realpath(join(prefix, path))`, with both functions left to the environment; `TryPrefixes` is stated in terms of it |
| Resolve.TryPrefixes | graph.py:127-133 | the result is the candidate of the earliest prefix whose candidate exists; with no such prefix (or no prefixes) the path comes back unchanged |
| Resolve.TryPrefixesAppend | graph.py:128-133 | searching `front + back` answers from `front` when any prefix there resolves and from `back` otherwise |
| Resolve.LineInclude | graph.py:141-143 | a line contributes a path exactly when it is an include directive; the path exists when some prefix resolves the token, and is the token itself otherwise |
| Resolve.GetIncludes | graph.py:136-146 | a path is an include of the file exactly when some line of the file matches and its token resolves to that path |
| Resolve.Collect | graph.py:139-146 | the set the line loop builds holds a value exactly when some line contributed it |
| Resolve.RepeatedLine | graph.py:138-144 | repeating a line of the file does not change its includes |
| IncludeGraph.Label | graph.py:89-92 | the label is the whole name with `full_path`, otherwise the basename: the longest separator-free tail of the name (everything after its last separator) |
| IncludeGraph.Directories | graph.py:95 | the directory names of a path: the components of its dirname, none holding a separator; `PathDirectories` states which names a joined path gives back |
| IncludeGraph.Window | graph.py:96-97 | `dirs[begin:begin + 2]` under Python slicing: at most two of the directories, and none once the start is past the end |
| IncludeGraph.Group | graph.py:94-97 | `/`.join of `GroupDirs`; `GroupSegments`, `GroupWindow`, `GroupBeyondDepth` and `GroupsAtDepthThree` state its value |
| IncludeGraph.GroupDirs | graph.py:94-97 | at most two separator-free directory names, and none for granularity 0 or less |
| IncludeGraph.GroupWindow | graph.py:94-97 | within the depth of the path: the last directory for granularity 1, and for granularity `g` of at least 2 the two directories starting `g` from the end |
| IncludeGraph.GroupSegments | graph.py:97 | splitting a non-empty group gives back the directories it was joined from; a group never has more than two segments |
| IncludeGraph.DirnameOfChild | graph.py:95 | the dirname of `dir + "/" + base` is `dir`, when `dir` does not end in a separator and `base` has none |
| IncludeGraph.PathDirectories | graph.py:95 | a path built by joining separator-free directory names whose last name is non-empty, then appending `/` and a separator-free base name, has exactly those directories (dirname, then split) |
| IncludeGraph.FourDirectoryWindows | graph.py:96-97 | with four directories the window is the inner pair at granularity 2, empty at 5, and the outer pair at 7 |
| IncludeGraph.GroupsAtDepthThree | graph.py:94-97 | for any `/a/b/c/base` the group is `b/c` at granularity 2, empty at 5, and `a/b` at 7 |
| IncludeGraph.GroupExample | graph.py:94-97 | `/proj/src/lib/foo.cpp` at granularity 2 is grouped under `src/lib` |
| IncludeGraph.GroupBeyondDepth | graph.py:94-97 | every granularity above the depth: with at least two directories, up to two past the depth and from twice the depth plus two on give no group, in between the window counts from the end again, and twice the depth plus one gives the outermost directory alone; with one directory, granularity 2 still gives it and 3 gives none |
| IncludeGraph.GroupWrapsAround | graph.py:94-97 | `/a/b/c/d.h` is grouped under `b/c` at granularity 2, nothing at 5, and `a/b` at 7 |
| IncludeGraph.GroupOneDirectory | graph.py:94-97 | at the default granularity 2, `sys/types.h` is grouped under `sys` |
| IncludeGraph.Empty | graph.py:46-52 | a new graph: the settings, no nodes and no edges; `WellFormed` holds of it (`WellFormedEmpty`) |
| IncludeGraph.IdsAreRange | graph.py:86 | in a well-formed graph the node ids are exactly `0 .. n-1` |
| IncludeGraph.AddNode | graph.py:82-104 | a new node gets the node count as id, the given size or 1, its label and group, and is the only change |
| IncludeGraph.AddNodeWellFormed | graph.py:83-86 | adding a node keeps the graph well formed and its id is above every earlier id |
| IncludeGraph.GetOrAddNode | graph.py:76-80 | an existing node is returned untouched with the graph unchanged; otherwise exactly one node is added |
| IncludeGraph.GetOrAddNodeIdempotent | graph.py:76-80 | registering the same name again returns the same graph and node, whatever size is asked for |
| IncludeGraph.AddEdge | graph.py:106-119 | one edge is appended with the edge count as id, size 10, type `curvedArrow`, from the source's id to the target's id; nothing else changes |
| IncludeGraph.AddNeighbor | graph.py:62-65 | one pass of the loop registers the neighbour (with the next id if new), keeps every other node, and appends one edge from the source to it |
| IncludeGraph.AddNeighborNewNode | graph.py:82-97 | a neighbour seen for the first time gets size 1 and the label and group of its name |
| IncludeGraph.AddNeighbors | graph.py:62-65 | the loop adds exactly the neighbours as nodes, keeps existing nodes, and adds one edge per neighbour |
| IncludeGraph.AddNeighborsNewNodes | graph.py:82-97 | nodes the loop creates have size 1, fresh ids, and the label and group of their name |
| IncludeGraph.AddNeighborsEdges | graph.py:106-117 | edge `k` of the loop is from the source to neighbour `k`, with id `k` counted from the earlier edges, which stay in place |
| IncludeGraph.AddNeighborsLoopEdges | graph.py:62-65 | the loop keeps the earlier edges and its edge `j` runs from the source to the node of neighbour `j` |
| IncludeGraph.AddNeighborsWellFormed | graph.py:62-65 | the loop keeps the graph well formed |
| IncludeGraph.Register | graph.py:57-60 | the file's node exists afterwards with its size set to the neighbour count, new or old, and no other node changes |
| IncludeGraph.RegisterWellFormed | graph.py:57-60 | registering the file keeps the graph well formed |
| IncludeGraph.Add | graph.py:54-65 | `add`: register the file with its neighbour count as size, then each neighbour with an edge from the file; stated by `AddNodes`, `AddNewNodes`, `AddKeepsEdges`, `AddNewEdges` and `AddWellFormed` |
| IncludeGraph.AddNodes | graph.py:54-65 | after `add` the nodes are the old ones, the file and the neighbours; the file's size is the neighbour count (also for a file that includes itself); other old nodes are untouched |
| IncludeGraph.AddNewNodes | graph.py:54-65 | a new file gets the next id; new neighbours have size 1; every new node has a fresh id, its label and group |
| IncludeGraph.AddKeepsEdges | graph.py:62-65 | `add` appends exactly one edge per neighbour and keeps the earlier edges |
| IncludeGraph.AddNewEdges | graph.py:62-65 | the appended edges run, in order, from the file's node to each neighbour's node, with consecutive ids |
| IncludeGraph.AddWellFormed | graph.py:54-65 | `add` keeps node ids distinct and below the node count, edge ids equal to their positions, and edge endpoints existing |
| IncludeGraph.AddNeighborsIgnoresRelation | graph.py:112-115 | the neighbour loop produces the same edges under either relation |
| IncludeGraph.AddIgnoresRelation | graph.py:112-115 | `add` under either relation gives the same graph apart from the relation setting |
| IncludeGraph.FirstOfTwo | graph.py:54-65 | adding `a` with neighbour `b` to an empty graph gives `a` id 0 and size 1, `b` id 1, and the single edge 0 from `a` to `b` |
| IncludeGraph.TwoFiles | graph.py:54-65 | adding `a` with neighbour `b`, then `b` with none, gives `a` id 0 size 1, `b` id 1 size 0, and the single edge 0 from `a` to `b` |
| Walk.PatternJobs | graph.py:159-160 | the files found for one pattern, in listing order, each tagged with the scan root |
| Walk.DirectoryJobs | graph.py:157-160 | a job is visited for a directory exactly when its root is the directory's real path and its file is listed for one of the patterns |
| Walk.Jobs | graph.py:156-160 | a job is visited exactly when it is visited for one of the directories |
| Walk.CommandLinePrefixes | graph.py:200-204 | the prefixes are the working directory, then the given prefixes in order, then the empty prefix that line 247 appends |
| Walk.Scan | graph.py:158-167 | a finished scan keeps the graph's settings and all of its nodes |
| Walk.Step | graph.py:161-167 | the loop body for one job that can be got past: a directory leaves the graph as it is, a file is added with its resolved includes in set order; stated by `StepGrows`, `StepCovers`, `StepSize`, `StepNodes` and `StepEdges` |
| Walk.ScanSucceeds | graph.py:155-167 | the scan finishes exactly when no job is an unreadable file |
| Walk.ScanStops | graph.py:155-167 | a scan that stops reports the first unreadable file |
| Walk.AddGrows | graph.py:54-65 | `add` keeps the settings, the old edges, and every old node's id |
| Walk.StepGrows | graph.py:161-167 | scanning one job extends the graph and keeps it well formed |
| Walk.ScanGrows | graph.py:155-167 | a finished scan extends the graph it started from and keeps it well formed |
| Walk.StepCovers | graph.py:166-167 | after scanning a file, it and every include resolved from it are nodes |
| Walk.ScanCovers | graph.py:155-167 | after a finished scan every scanned file and every include resolved from it is a node |
| Walk.StepSize | graph.py:57-60 | scanning a file leaves its node sized by its number of distinct includes |
| Walk.StepKeepsNode | graph.py:62-65 | scanning a job leaves the node of every other existing file unchanged, even when the job includes it |
| Walk.ScanKeepsNode | graph.py:155-167 | a finished scan over jobs that never name a file leaves that file's existing node unchanged |
| Walk.ScanSizes | graph.py:155-167 | after a finished scan every scanned file is sized by the distinct includes of its last scan, whatever order the jobs and sets are visited in |
| Walk.StepNodes | graph.py:161-167 | scanning one job adds exactly its file and the includes resolved from it as nodes, and nothing else |
| Walk.ScanNodes | graph.py:155-167 | after a finished scan the nodes are exactly the starting nodes, the scanned files and the includes resolved from them |
| Walk.StepEdges | graph.py:166-167 | scanning a file appends one edge per distinct include, each from the file's node to that include's node, and keeps the earlier edges |
| Walk.ScanEdges | graph.py:155-167 | a finished scan appends as many edges as the scanned files have distinct includes in total, each from a scanned file's node to the node of one of its includes |
| Walk.RootFirst | graph.py:166 | a token found next to the scan root resolves there before any configured prefix |
| Walk.RootMissed | graph.py:166 | a token not found next to the scan root resolves as the configured prefixes alone would resolve it |
| Walk.EmptyPrefixResolves | graph.py:246-247 | with the command-line prefixes, a token that exists as a path by itself always resolves to an existing path |
| Walk.WalkTree | graph.py:155-167 | `walk`: the scan of all jobs the directory and pattern loops visit; `WalkFromEmpty` states what it yields |
| Walk.FileIncludes | graph.py:166 | a path is an include of a file found under `root` exactly when some directive's token is that path next to the root, or, when nothing exists there, resolves to it against the configured prefixes |
| Walk.SearchPath | graph.py:166 | the search path of a file found under `root`: the root, then the configured prefixes; `RootFirst` and `RootMissed` state its effect |
| Walk.WalkFromEmpty | graph.py:155-167 | a walk from an empty graph finishes exactly when every visited file can be read, and then gives a well-formed graph with the given settings whose nodes are exactly the scanned files and their includes, each scanned file sized by the distinct includes of its last scan, and whose edges number the scanned files' distinct includes, each from a file's node to one of its includes' nodes; otherwise it names the first unreadable file |

## Left out

- Colours (graph.py:23-42, 55, 63) and the random `x`/`y` node positions
  (graph.py:99-100): random cosmetics that nothing else reads.
- `to_json`, `write` and `__str__` (graph.py:67-74, 121-124): output
  formatting and file writing.
- The web server (graph.py:172-187) and the rest of argument parsing
  (graph.py:190-255) beyond the prefix list; the default patterns and the
  `--relation`, `--full-path` and `--group-granularity` settings enter as the
  `Config` value and the pattern list.
- The verbose diagnostics `walk` prints (graph.py:162-164, 169): they change
  no state.
- `glob` (graph.py:149-152): `os.walk` and `fnmatch` are a parameter of the
  environment that lists the files for a directory and a pattern.
- `os.path.join`, `realpath`, `exists` and `isdir`: parameters of the
  environment, so nothing here depends on how a real filesystem resolves
  links or `..`.
- Reading a file: a parameter that yields the file's lines with their line
  breaks, or nothing when reading fails. Python's newline translation and
  text decoding happen inside it.
- Windows paths: `os.sep` is `/` throughout.
- Walk.Scan: its own contract only keeps settings and nodes; what the scan
  guarantees about success, errors, well-formedness, coverage, sizes, nodes
  and edges is stated by `ScanSucceeds`, `ScanStops`, `ScanGrows`,
  `ScanCovers`, `ScanSizes`, `ScanNodes` and `ScanEdges`, to keep each proof
  small.
- Walk.ScanCovers, Walk.StepCovers, Walk.StepSize, Walk.FirstScanSize,
  Walk.ScanSizes, Walk.StepNodes, Walk.ScanNodes, Walk.StepEdges,
  Walk.ScanEdges, Walk.WalkFromEmpty: require that set iteration visits every
  element exactly once (`EnumeratesSets`), which Python guarantees but the
  environment parameter does not by itself.
- The size of a node that is only ever an include is the default 1; this is
  stated per `add` (`AddNewNodes`), not for the whole walk.

=== FILE: directive.dfy ===
/** Recognising an include directive on one line of a source file: the Python
    pattern `^#include ["<](.*)[">]$` applied with `re.match`. */
module Directive {
  import opened Wrappers

  /** The literal text every directive starts with, one space included. */
  const KEYWORD: string := "#include "

  /** Characters the pattern accepts before the token. */
  predicate IsOpener(c: char) {
    c == '"' || c == '<'
  }

  /** Characters the pattern accepts after the token. */
  predicate IsCloser(c: char) {
    c == '"' || c == '>'
  }

  /** The line without the one line break `$` may match in front of. */
  function Content(line: string): string {
    if |line| > 0 && line[|line| - 1] == '\n' then line[..|line| - 1] else line
  }

  /** The token of an include directive, or `None` when the line is not one.
      `.*` is greedy and does not cross a line break, and `$` matches at the end
      of the line or just before a final line break, so the token runs from the
      character after the opener to the character before the last closer. The
      two delimiters need not agree. */
  function IncludeToken(line: string): (r: Option<string>)
    ensures r.Some? ==> '\n' !in r.value && |r.value| + 11 <= |line| <= |r.value| + 12
    ensures r.Some? ==> line[..9] == KEYWORD && IsOpener(line[9])
    ensures r.Some? ==> |Content(line)| >= 11 && IsCloser(Content(line)[|Content(line)| - 1])
    ensures r.Some? ==> r.value == Content(line)[10..|Content(line)| - 1]
  {
    var c := Content(line);
    if |c| >= 11 && c[..9] == KEYWORD && IsOpener(c[9]) && IsCloser(c[|c| - 1])
       && '\n' !in c[10..|c| - 1]
    then Some(c[10..|c| - 1])
    else None
  }

  /** The line a directive with these delimiters and this token occupies,
      with or without its line break. */
  function Render(open: char, token: string, close: char, newline: bool): string {
    KEYWORD + [open] + token + [close] + (if newline then "\n" else "")
  }

  /** `line` is the rendering of a directive for `token`: the independent
      reading of the pattern. */
  ghost predicate IsDirectiveFor(line: string, token: string) {
    && '\n' !in token
    && exists open, close, newline {:trigger Render(open, token, close, newline)} ::
         IsOpener(open) && IsCloser(close) && line == Render(open, token, close, newline)
  }

  /** Rendering a directive and matching it gives its token back. */
  lemma {:induction false} MatchRender(open: char, token: string, close: char, newline: bool)
    requires IsOpener(open) && IsCloser(close) && '\n' !in token
    ensures IncludeToken(Render(open, token, close, newline)) == Some(token)
  {
    var line := Render(open, token, close, newline);
    var c := KEYWORD + [open] + token + [close];
    assert Content(line) == c;
    assert c[..9] == KEYWORD;
    assert c[10..|c| - 1] == token;
  }

  /** Every match is the rendering of a directive for its token. */
  lemma {:induction false} MatchIsRendering(line: string)
    requires IncludeToken(line).Some?
    ensures IsDirectiveFor(line, IncludeToken(line).value)
  {
    var c := Content(line);
    var t := IncludeToken(line).value;
    var newline := |line| > 0 && line[|line| - 1] == '\n';
    assert c == c[..9] + [c[9]] + c[10..|c| - 1] + [c[|c| - 1]];
    assert line == Render(c[9], t, c[|c| - 1], newline);
  }

  /** The matcher accepts exactly the renderings of directives, and finds
      their token. */
  lemma MatchIff(line: string, token: string)
    ensures IncludeToken(line) == Some(token) <==> IsDirectiveFor(line, token)
  {
    if IncludeToken(line) == Some(token) {
      MatchIsRendering(line);
    }
    if IsDirectiveFor(line, token) {
      var open, close, newline :| IsOpener(open) && IsCloser(close)
                                  && line == Render(open, token, close, newline);
      MatchRender(open, token, close, newline);
    }
  }

  /** Leading white space and trailing text defeat the anchored pattern. */
  lemma RejectsLooseLines()
    ensures IncludeToken("  #include \"x.h\"") == None
    ensures IncludeToken("#include \"x.h\" // comment") == None
    ensures IncludeToken("#include  \"x.h\"") == None
    ensures IncludeToken("#include \"") == None
  {
    var indented := "  #include \"x.h\"";
    assert Content(indented) == indented;
    assert indented[..9][0] != KEYWORD[0];
    var commented := "#include \"x.h\" // comment";
    assert Content(commented) == commented;
    assert !IsCloser(commented[|commented| - 1]);
    var spaced := "#include  \"x.h\"";
    assert Content(spaced) == spaced;
    assert !IsOpener(spaced[9]);
  }

  /** Mismatched delimiters, an empty token and a final line break are accepted. */
  lemma AcceptsDirectives()
    ensures IncludeToken("#include \"x.h>\n") == Some("x.h")
    ensures IncludeToken("#include <vector>") == Some("vector")
    ensures IncludeToken("#include \"\"") == Some("")
  {
    AcceptsMixed("#include \"x.h>\n");
    AcceptsAngle("#include <vector>");
    AcceptsEmpty("#include \"\"");
  }

  lemma AcceptsMixed(line: string)
    requires line == "#include \"x.h>\n"
    ensures IncludeToken(line) == Some("x.h")
  {
    MatchRender('"', "x.h", '>', true);
    assert Render('"', "x.h", '>', true) == line;
  }

  lemma AcceptsAngle(line: string)
    requires line == "#include <vector>"
    ensures IncludeToken(line) == Some("vector")
  {
    MatchRender('<', "vector", '>', false);
    assert Render('<', "vector", '>', false) == line;
  }

  lemma AcceptsEmpty(line: string)
    requires line == "#include \"\""
    ensures IncludeToken(line) == Some("")
  {
    MatchRender('"', "", '"', false);
    assert Render('"', "", '"', false) == line;
  }
}

=== FILE: graph.dfy ===
/** The `Graph` class: a registry of nodes keyed by path, each with an id
    assigned in creation order, and an append-only list of edges. The graph is
    a value here; every operation returns the graph it leaves behind. */
module IncludeGraph {
  import opened Wrappers
  import PyStr
  import opened PosixPath

  /** The `--relation` option. */
  datatype Relation = Includes | IncludedBy

  /** The settings a `Graph` is constructed with (colours are not modelled). */
  datatype Config = Config(relation: Relation, fullPath: bool, granularity: int)

  /** A node's attributes, apart from its colour and random position. */
  datatype Node = Node(id: nat, size: nat, labelText: string, group: string)

  /** An edge's attributes; `size` and `kind` are the same for every edge. */
  datatype Edge = Edge(id: nat, source: nat, target: nat, size: nat, kind: string)

  datatype Graph = Graph(config: Config, nodes: map<string, Node>, edges: seq<Edge>)

  /** `after` starts with the edges of `before`, unchanged. */
  predicate KeepsEdges(before: seq<Edge>, after: seq<Edge>) {
    |before| <= |after| && forall i :: 0 <= i < |before| ==> after[i] == before[i]
  }

  /** A node registration's result: the updated graph and the node. */
  datatype Registration = Registration(graph: Graph, node: Node)

  /** The size a node is created with when the caller gives none. */
  const DEFAULT_NODE_SIZE: nat := 1
  const EDGE_SIZE: nat := 10
  const EDGE_KIND: string := "curvedArrow"

  /** A freshly constructed graph. */
  function Empty(config: Config): Graph {
    Graph(config, map[], [])
  }

  /** The label shown for `name`: the whole path with `full_path` set, its last
      component otherwise. */
  function Label(config: Config, name: string): (r: string)
    ensures config.fullPath ==> r == name
    ensures !config.fullPath ==> SEP !in r && |r| <= |name| && r == name[|name| - |r|..]
    ensures !config.fullPath && |r| < |name| ==> name[|name| - |r| - 1] == SEP
  {
    if config.fullPath then name else Basename(name)
  }

  /** The directory names of `name` that make up its group: the slice
      `dirs[begin:begin + 2]` of the dirname's components, where
      `begin = len(dirs) - granularity`. The window is two wide whatever the
      granularity, and Python's rules for negative slice bounds apply. */
  function GroupDirs(name: string, granularity: int): (r: seq<string>)
    ensures |r| <= 2
    ensures forall i :: 0 <= i < |r| ==> SEP !in r[i]
    ensures granularity <= 0 ==> r == []
  {
    var dirs := Directories(name);
    var r := Window(dirs, |dirs| - granularity);
    assert forall i :: 0 <= i < |r| ==> r[i] in dirs;
    r
  }

  /** The directory names of `name`: its dirname split at every separator. */
  function Directories(name: string): (r: seq<string>)
    ensures forall d :: d in r ==> SEP !in d
  {
    PyStr.Split(Dirname(name), SEP)
  }

  /** `dirs[begin:begin + 2]`: at most two of the directories, none when the
      window starts at or past the end. */
  function Window(dirs: seq<string>, begin: int): (r: seq<string>)
    ensures |r| <= 2
    ensures forall i :: 0 <= i < |r| ==> r[i] in dirs
    ensures begin >= |dirs| ==> r == []
  {
    var r := PyStr.Slice(dirs, begin, begin + 2);
    assert forall i :: 0 <= i < |r| ==> r[i] == dirs[PyStr.SliceBound(begin, |dirs|) + i];
    r
  }

  /** Within the depth of the path, the group is the last directory for
      granularity 1, and for granularity `g` of at least 2 the two directories
      starting `g` from the end. */
  lemma GroupWindow(name: string, granularity: int)
    ensures var dirs := Directories(name);
      1 <= granularity <= |dirs| ==>
        GroupDirs(name, granularity)
          == dirs[|dirs| - granularity..if granularity >= 2 then |dirs| - granularity + 2 else |dirs|]
  {
    var dirs := Directories(name);
    if 1 <= granularity <= |dirs| {
      GroupDirsWindow(name, granularity);
      WindowWithin(dirs, granularity);
    }
  }

  lemma WindowWithin(dirs: seq<string>, granularity: int)
    requires 1 <= granularity <= |dirs|
    ensures Window(dirs, |dirs| - granularity)
         == dirs[|dirs| - granularity..if granularity >= 2 then |dirs| - granularity + 2 else |dirs|]
  {
    var n := |dirs|;
    var begin := n - granularity;
    var r := Window(dirs, begin);
    assert PyStr.SliceBound(begin, n) == begin;
    if granularity >= 2 {
      assert PyStr.SliceBound(begin + 2, n) == begin + 2;
    } else {
      assert PyStr.SliceBound(begin + 2, n) == n;
      assert |r| == 1 && r[0] == dirs[begin];
    }
  }

  /** The group of `name`: its group directories joined by the separator. */
  function Group(name: string, granularity: int): string {
    PyStr.Join(GroupDirs(name, granularity), SEP)
  }

  /** A group names at most two directories: splitting it gives back exactly the
      directories it was joined from. */
  lemma GroupSegments(name: string, granularity: int)
    ensures |GroupDirs(name, granularity)| >= 1 ==>
      PyStr.Split(Group(name, granularity), SEP) == GroupDirs(name, granularity)
    ensures |PyStr.Split(Group(name, granularity), SEP)| <= 2
  {
    var dirs := GroupDirs(name, granularity);
    if |dirs| >= 1 {
      PyStr.SplitJoin(dirs, SEP);
    } else {
      assert PyStr.Split("", SEP) == [""];
    }
  }

  /** The dirname of a path whose last separator follows `dir`, when `dir`
      does not itself end in a separator. */
  lemma DirnameOfChild(dir: string, base: string)
    requires |dir| > 0 && dir[|dir| - 1] != SEP && SEP !in base
    ensures Dirname(dir + [SEP] + base) == dir
  {
    var p := dir + [SEP] + base;
    assert p[|dir|] == SEP;
    assert forall k :: |dir| < k < |p| ==> p[k] == base[k - |dir| - 1];
    var t := TailStart(p);
    assert t == |dir| + 1;
    var head := p[..t];
    assert head == dir + [SEP];
    assert head[|dir| - 1] != SEP;
    var r := StripTrailing(head);
    assert |r| == |dir|;
    assert r == head[..|dir|] == dir;
  }

  /** A path made of directory names, a separator and a base name has exactly
      those directories. */
  lemma PathDirectories(dirs: seq<string>, base: string, name: string)
    requires |dirs| >= 1 && forall i :: 0 <= i < |dirs| ==> SEP !in dirs[i]
    requires |dirs[|dirs| - 1]| > 0 && SEP !in base
    requires name == PyStr.Join(dirs, SEP) + [SEP] + base
    ensures Directories(name) == dirs
  {
    var dir := PyStr.Join(dirs, SEP);
    var last := dirs[|dirs| - 1];
    PyStr.JoinEndsWithLast(dirs, SEP);
    assert dir[|dir| - 1] == last[|last| - 1];
    DirnameOfChild(dir, base);
    PyStr.SplitJoin(dirs, SEP);
  }

  /** `/` followed by three directory names joined by separators. */
  lemma JoinAbsolute(a: string, b: string, c: string)
    ensures PyStr.Join(["", a, b, c], SEP) == [SEP] + a + [SEP] + b + [SEP] + c
  {
    var dirs := ["", a, b, c];
    PyStr.JoinCons(b, [c], SEP);
    assert [b] + [c] == dirs[2..];
    PyStr.JoinCons(a, dirs[2..], SEP);
    assert [a] + dirs[2..] == dirs[1..];
    PyStr.JoinCons("", dirs[1..], SEP);
    assert [""] + dirs[1..] == dirs;
  }

  /** The directories of an absolute path three directories deep, `/a/b/c/base`. */
  lemma DepthThreeDirectories(a: string, b: string, c: string, base: string, name: string)
    requires SEP !in a && SEP !in b && SEP !in c && SEP !in base && |c| > 0
    requires name == [SEP] + a + [SEP] + b + [SEP] + c + [SEP] + base
    ensures Directories(name) == ["", a, b, c]
  {
    var dirs := ["", a, b, c];
    JoinAbsolute(a, b, c);
    assert forall i :: 0 <= i < |dirs| ==> SEP !in dirs[i];
    PathDirectories(dirs, base, name);
  }

  /** With four directories the window is the inner pair at granularity 2,
      empty at 5, and the outer pair at 7. */
  lemma FourDirectoryWindows(name: string, dirs: seq<string>)
    requires Directories(name) == dirs && |dirs| == 4
    ensures GroupDirs(name, 2) == [dirs[2], dirs[3]]
    ensures GroupDirs(name, 5) == []
    ensures GroupDirs(name, 7) == [dirs[1], dirs[2]]
  {
    GroupDirsWindow(name, 2);
    WindowWithin(dirs, 2);
    assert GroupDirs(name, 2) == dirs[2..4];
    GroupDirsWindow(name, 5);
    WindowBeyond(dirs, 5);
    GroupDirsWindow(name, 7);
    WindowBeyond(dirs, 7);
    assert GroupDirs(name, 7) == dirs[1..3];
  }

  /** The groups of an absolute path three directories deep, `/a/b/c/base`:
      the inner pair `b/c` at granularity 2, nothing just past the depth (5),
      and the outer pair `a/b` at 7, where the window start wraps around. */
  lemma GroupsAtDepthThree(a: string, b: string, c: string, base: string, name: string)
    requires SEP !in a && SEP !in b && SEP !in c && SEP !in base && |c| > 0
    requires name == [SEP] + a + [SEP] + b + [SEP] + c + [SEP] + base
    ensures Group(name, 2) == b + [SEP] + c
    ensures Group(name, 5) == ""
    ensures Group(name, 7) == a + [SEP] + b
  {
    DepthThreeDirectories(a, b, c, base, name);
    FourDirectoryWindows(name, ["", a, b, c]);
    JoinPair(b, c, GroupDirs(name, 2));
    JoinPair(a, b, GroupDirs(name, 7));
  }

  /** The example path component by component, and its expected group. */
  lemma ExampleSpelling(name: string)
    requires name == "/proj/src/lib/foo.cpp"
    ensures name == [SEP] + "proj" + [SEP] + "src" + [SEP] + "lib" + [SEP] + "foo.cpp"
    ensures "src" + [SEP] + "lib" == "src/lib"
  {
  }

  /** The wrap-around example path component by component, and its expected
      groups. */
  lemma WrapSpelling(name: string)
    requires name == "/a/b/c/d.h"
    ensures name == [SEP] + "a" + [SEP] + "b" + [SEP] + "c" + [SEP] + "d.h"
    ensures "b" + [SEP] + "c" == "b/c" && "a" + [SEP] + "b" == "a/b"
  {
  }

  /** Example: with granularity 2, `/proj/src/lib/foo.cpp` is grouped
      under `src/lib`. */
  lemma GroupExample(name: string)
    requires name == "/proj/src/lib/foo.cpp"
    ensures Group(name, 2) == "src/lib"
  {
    ExampleSpelling(name);
    GroupsAtDepthThree("proj", "src", "lib", "foo.cpp", name);
  }

  /** Joining two directory names puts one separator between them. */
  lemma JoinPair(a: string, b: string, pair: seq<string>)
    requires pair == [a, b]
    ensures PyStr.Join(pair, SEP) == a + [SEP] + b
  {
    assert pair[1..] == [b];
  }

  /** Past the depth of the path the window start is negative and counts from
      the end again. With at least two directories: just past the depth (up to
      two more) and at twice the depth plus two or more the group is empty; in
      between the window selects directories nearer the root, down to the
      outermost one alone at twice the depth plus one. With one directory,
      granularity 2 still selects it and 3 or more selects nothing. */
  lemma GroupBeyondDepth(name: string, dirs: seq<string>, granularity: int)
    requires dirs == Directories(name)
    ensures |dirs| >= 2 && |dirs| < granularity <= |dirs| + 2 ==> GroupDirs(name, granularity) == []
    ensures granularity >= 2 * |dirs| + 2 ==> GroupDirs(name, granularity) == []
    ensures |dirs| + 2 < granularity <= 2 * |dirs| ==>
      GroupDirs(name, granularity) == dirs[2 * |dirs| - granularity..2 * |dirs| - granularity + 2]
    ensures |dirs| >= 2 && granularity == 2 * |dirs| + 1 ==> GroupDirs(name, granularity) == [dirs[0]]
    ensures |dirs| == 1 && granularity == 2 ==> GroupDirs(name, granularity) == dirs
    ensures |dirs| == 1 && granularity == 3 ==> GroupDirs(name, granularity) == []
  {
    GroupDirsWindow(name, granularity);
    WindowBeyond(dirs, granularity);
  }

  /** Example: at the default granularity 2, a header one directory deep such
      as `sys/types.h` is grouped under that directory. */
  lemma GroupOneDirectory(name: string)
    requires name == "sys/types.h"
    ensures Group(name, 2) == "sys"
  {
    assert name == "sys" + [SEP] + "types.h";
    DirnameOfChild("sys", "types.h");
    PyStr.SplitWhole("sys", SEP);
    GroupBeyondDepth(name, ["sys"], 2);
  }

  /** The group directories are the window of the directories. */
  lemma GroupDirsWindow(name: string, granularity: int)
    ensures GroupDirs(name, granularity) == Window(Directories(name), |Directories(name)| - granularity)
  {
  }

  lemma WindowBeyond(dirs: seq<string>, granularity: int)
    ensures |dirs| >= 2 && |dirs| < granularity <= |dirs| + 2 ==> Window(dirs, |dirs| - granularity) == []
    ensures granularity >= 2 * |dirs| + 2 ==> Window(dirs, |dirs| - granularity) == []
    ensures |dirs| + 2 < granularity <= 2 * |dirs| ==>
      Window(dirs, |dirs| - granularity) == dirs[2 * |dirs| - granularity..2 * |dirs| - granularity + 2]
    ensures |dirs| >= 2 && granularity == 2 * |dirs| + 1 ==> Window(dirs, |dirs| - granularity) == [dirs[0]]
    ensures |dirs| == 1 && granularity == 2 ==> Window(dirs, |dirs| - granularity) == dirs
    ensures |dirs| == 1 && granularity == 3 ==> Window(dirs, |dirs| - granularity) == []
  {
    var n := |dirs|;
    var begin := n - granularity;
    var r := Window(dirs, begin);
    if n >= 2 && n < granularity <= n + 2 {
      assert PyStr.SliceBound(begin, n) == begin + n;
      assert PyStr.SliceBound(begin + 2, n) == begin + 2;
    } else if granularity >= 2 * n + 2 {
      assert PyStr.SliceBound(begin + 2, n) == 0;
    } else if n + 2 < granularity <= 2 * n {
      var lo := 2 * n - granularity;
      assert PyStr.SliceBound(begin, n) == lo;
      assert PyStr.SliceBound(begin + 2, n) == lo + 2;
      assert |r| == 2 && r[0] == dirs[lo] && r[1] == dirs[lo + 1];
    } else if n >= 2 && granularity == 2 * n + 1 {
      assert PyStr.SliceBound(begin, n) == 0;
      assert PyStr.SliceBound(begin + 2, n) == 1;
      assert |r| == 1 && r[0] == dirs[0];
    } else if n == 1 && granularity == 2 {
      assert PyStr.SliceBound(begin, n) == 0;
      assert PyStr.SliceBound(begin + 2, n) == 1;
      assert |r| == 1 && r[0] == dirs[0];
    } else if n == 1 && granularity == 3 {
      assert PyStr.SliceBound(begin + 2, n) == 0;
    }
  }

  /** `/a/b/c/d.h` is grouped under `b/c` at granularity 2, under nothing at 5,
      and under `a/b` at 7. */
  lemma GroupWrapsAround(name: string)
    requires name == "/a/b/c/d.h"
    ensures Group(name, 2) == "b/c" && Group(name, 5) == "" && Group(name, 7) == "a/b"
  {
    WrapSpelling(name);
    GroupsAtDepthThree("a", "b", "c", "d.h", name);
  }

  /** No two nodes share an id. */
  ghost predicate UniqueIds(nodes: map<string, Node>) {
    forall a, b :: a in nodes && b in nodes && nodes[a].id == nodes[b].id ==> a == b
  }

  /** What the graph's operations maintain: every node id is below the node
      count and no two nodes share one (so the ids are exactly
      `0 .. |nodes| - 1`, see `IdsAreRange`); edge `i` has id `i`; and every
      edge joins two ids of existing nodes. */
  ghost predicate WellFormed(g: Graph) {
    && (forall n :: n in g.nodes ==> g.nodes[n].id < |g.nodes|)
    && UniqueIds(g.nodes)
    && forall i :: 0 <= i < |g.edges| ==>
         g.edges[i].id == i && g.edges[i].source < |g.nodes| && g.edges[i].target < |g.nodes|
  }

  lemma WellFormedEmpty(config: Config)
    ensures WellFormed(Empty(config))
  {
  }

  /** The ids of the nodes. */
  ghost function Ids(nodes: map<string, Node>): set<int> {
    set n | n in nodes :: nodes[n].id
  }

  /** Distinct nodes have distinct ids, so there are as many ids as nodes. */
  lemma {:induction false} IdsCount(nodes: map<string, Node>)
    requires UniqueIds(nodes)
    ensures |Ids(nodes)| == |nodes|
    decreases |nodes|
  {
    if |nodes| > 0 {
      var k :| k in nodes;
      var rest := nodes - {k};
      assert UniqueIds(rest);
      IdsCount(rest);
      assert Ids(nodes) == Ids(rest) + {nodes[k].id} by {
        forall x | x in Ids(nodes) ensures x in Ids(rest) + {nodes[k].id} {
          var n :| n in nodes && nodes[n].id == x;
          if n != k { assert rest[n].id == x; }
        }
      }
      assert nodes[k].id !in Ids(rest);
    } else {
      assert Ids(nodes) == {};
    }
  }

  /** A set of numbers below `n` has at most `n` elements. */
  lemma {:induction false} RangeBound(s: set<int>, n: nat)
    requires forall x :: x in s ==> 0 <= x < n
    ensures |s| <= n
    decreases n
  {
    if n == 0 {
      assert forall x :: x !in s;
      assert s == {};
    } else {
      RangeBound(s - {n - 1}, n - 1);
    }
  }

  /** A set of numbers below `n` that misses `hole` has at most `n - 1` elements. */
  lemma {:induction false} RangeWithHole(s: set<int>, n: nat, hole: int)
    requires 0 <= hole < n
    requires forall x :: x in s ==> 0 <= x < n && x != hole
    ensures |s| <= n - 1
    decreases n
  {
    if hole == n - 1 {
      RangeBound(s, n - 1);
    } else {
      RangeWithHole(s - {n - 1}, n - 1, hole);
    }
  }

  /** The node ids of a well-formed graph are exactly `0 .. |nodes| - 1`. */
  lemma IdsAreRange(g: Graph)
    requires WellFormed(g)
    ensures forall i :: 0 <= i < |g.nodes| <==> i in Ids(g.nodes)
  {
    IdsCount(g.nodes);
    forall i | 0 <= i < |g.nodes| ensures i in Ids(g.nodes) {
      if i !in Ids(g.nodes) {
        RangeWithHole(Ids(g.nodes), |g.nodes|, i);
      }
    }
  }

  /** `_add_node`: creates the node for a name not yet present, with the next
      id, the given size (1 by default), and the label and group derived from
      the name. */
  function AddNode(g: Graph, name: string, size: Option<nat>): (r: Registration)
    requires name !in g.nodes
    ensures r.graph.config == g.config && r.graph.edges == g.edges
    ensures r.graph.nodes == g.nodes[name := r.node]
    ensures |r.graph.nodes| == |g.nodes| + 1
    ensures r.node.id == |g.nodes|
    ensures r.node.size == size.GetOr(DEFAULT_NODE_SIZE)
    ensures r.node.labelText == Label(g.config, name)
    ensures r.node.group == Group(name, g.config.granularity)
  {
    var node := Node(|g.nodes|, size.GetOr(DEFAULT_NODE_SIZE), Label(g.config, name),
                     Group(name, g.config.granularity));
    Registration(g.(nodes := g.nodes[name := node]), node)
  }

  /** The new node's id is larger than every earlier one, and the graph stays
      well formed. */
  lemma AddNodeWellFormed(g: Graph, name: string, size: Option<nat>)
    requires WellFormed(g) && name !in g.nodes
    ensures WellFormed(AddNode(g, name, size).graph)
    ensures forall n :: n in g.nodes ==> g.nodes[n].id < AddNode(g, name, size).node.id
  {
    var r := AddNode(g, name, size);
    InsertWellFormed(g, name, r.node);
  }

  /** Inserting a node under a new name with the next id keeps the graph well
      formed. */
  lemma InsertWellFormed(g: Graph, name: string, node: Node)
    requires WellFormed(g) && name !in g.nodes && node.id == |g.nodes|
    ensures WellFormed(g.(nodes := g.nodes[name := node]))
  {
  }

  /** `_get_or_add_node`: the node already registered under `name`, untouched,
      or else a new one made by `AddNode`. */
  function GetOrAddNode(g: Graph, name: string, size: Option<nat>): (r: Registration)
    ensures name in g.nodes ==> r.graph == g && r.node == g.nodes[name]
    ensures name !in g.nodes ==> r == AddNode(g, name, size)
    ensures name in r.graph.nodes && r.graph.nodes[name] == r.node
    ensures forall n :: n in r.graph.nodes <==> n in g.nodes || n == name
    ensures |r.graph.nodes| == if name in g.nodes then |g.nodes| else |g.nodes| + 1
  {
    if name in g.nodes then Registration(g, g.nodes[name]) else AddNode(g, name, size)
  }

  /** Registering a name twice gives the first registration's graph and node
      back, whatever sizes the calls ask for. */
  lemma GetOrAddNodeIdempotent(g: Graph, name: string, first: Option<nat>, second: Option<nat>)
    ensures var r := GetOrAddNode(g, name, first);
      GetOrAddNode(r.graph, name, second) == r
  {
  }

  lemma GetOrAddNodeWellFormed(g: Graph, name: string, size: Option<nat>)
    requires WellFormed(g)
    ensures WellFormed(GetOrAddNode(g, name, size).graph)
  {
    if name !in g.nodes {
      AddNodeWellFormed(g, name, size);
    }
  }

  /** `_add_edge`: appends one edge from `source` to `target` whose id is the
      current edge count. The source code swaps its local `source` and
      `target` for the `included-by` relation only after the ids are stored,
      so the relation has no effect on the edge. */
  function AddEdge(g: Graph, source: Node, target: Node): (r: Graph)
    ensures r.config == g.config && r.nodes == g.nodes
    ensures |r.edges| == |g.edges| + 1 && KeepsEdges(g.edges, r.edges)
    ensures r.edges[|g.edges|].id == |g.edges|
    ensures r.edges[|g.edges|].source == source.id && r.edges[|g.edges|].target == target.id
    ensures r.edges[|g.edges|].size == EDGE_SIZE && r.edges[|g.edges|].kind == EDGE_KIND
  {
    var edge := Edge(|g.edges|, source.id, target.id, EDGE_SIZE, EDGE_KIND);
    g.(edges := g.edges + [edge])
  }

  lemma AddEdgeWellFormed(g: Graph, source: Node, target: Node)
    requires WellFormed(g) && source.id < |g.nodes| && target.id < |g.nodes|
    ensures WellFormed(AddEdge(g, source, target))
  {
  }

  /** One pass of the loop of `add`: registers `neighbor` with the default
      size and appends an edge from `source` to it. */
  function AddNeighbor(g: Graph, source: Node, neighbor: string): (r: Graph)
    ensures r.config == g.config
    ensures forall n :: n in r.nodes <==> n in g.nodes || n == neighbor
    ensures forall n :: n in g.nodes ==> r.nodes[n] == g.nodes[n]
    ensures |r.nodes| == if neighbor in g.nodes then |g.nodes| else |g.nodes| + 1
    ensures neighbor !in g.nodes ==> r.nodes[neighbor].id == |g.nodes|
    ensures |r.edges| == |g.edges| + 1 && KeepsEdges(g.edges, r.edges)
    ensures r.edges[|g.edges|] == Edge(|g.edges|, source.id, r.nodes[neighbor].id, EDGE_SIZE, EDGE_KIND)
  {
    var reg := GetOrAddNode(g, neighbor, None);
    AddEdge(reg.graph, source, reg.node)
  }

  /** A neighbour seen for the first time gets the default size, and the label
      and group of its name. */
  lemma AddNeighborNewNode(g: Graph, source: Node, neighbor: string)
    requires neighbor !in g.nodes
    ensures var r := AddNeighbor(g, source, neighbor);
      && r.nodes[neighbor].size == DEFAULT_NODE_SIZE
      && r.nodes[neighbor].labelText == Label(g.config, neighbor)
      && r.nodes[neighbor].group == Group(neighbor, g.config.granularity)
  {
  }

  lemma AddNeighborWellFormed(g: Graph, source: Node, neighbor: string)
    requires WellFormed(g) && source.id < |g.nodes|
    ensures WellFormed(AddNeighbor(g, source, neighbor))
  {
    var reg := GetOrAddNode(g, neighbor, None);
    GetOrAddNodeWellFormed(g, neighbor, None);
    AddEdgeWellFormed(reg.graph, source, reg.node);
  }

  /** The loop of `add` over the neighbours, in iteration order. */
  function AddNeighbors(g: Graph, source: Node, neighbors: seq<string>): (r: Graph)
    ensures r.config == g.config
    ensures forall n :: n in g.nodes ==> n in r.nodes && r.nodes[n] == g.nodes[n]
    ensures forall n :: n in r.nodes <==> n in g.nodes || n in neighbors
    ensures |r.nodes| >= |g.nodes|
    ensures |r.edges| == |g.edges| + |neighbors|
    decreases |neighbors|
  {
    if |neighbors| == 0 then g
    else
      var front := neighbors[..|neighbors| - 1];
      var last := neighbors[|neighbors| - 1];
      assert neighbors == front + [last];
      AddNeighbor(AddNeighbors(g, source, front), source, last)
  }

  /** Every node of `r` missing from `g` is a fresh default node: size 1, an id
      from `g`'s node count on, and the label and group of its name. */
  ghost predicate FreshDefaults(g: Graph, r: Graph) {
    forall n :: n in r.nodes && n !in g.nodes ==>
      && r.nodes[n].size == DEFAULT_NODE_SIZE
      && r.nodes[n].id >= |g.nodes|
      && r.nodes[n].labelText == Label(g.config, n)
      && r.nodes[n].group == Group(n, g.config.granularity)
  }

  /** One more pass of the loop only adds a fresh default node. */
  lemma FreshDefaultsStep(g: Graph, g1: Graph, source: Node, neighbor: string)
    requires FreshDefaults(g, g1) && g1.config == g.config && |g1.nodes| >= |g.nodes|
    requires forall n :: n in g.nodes ==> n in g1.nodes
    ensures FreshDefaults(g, AddNeighbor(g1, source, neighbor))
  {
    var r := AddNeighbor(g1, source, neighbor);
    if neighbor !in g1.nodes {
      AddNeighborNewNode(g1, source, neighbor);
    }
    forall n | n in r.nodes && n !in g.nodes
      ensures r.nodes[n].size == DEFAULT_NODE_SIZE
      ensures r.nodes[n].id >= |g.nodes|
      ensures r.nodes[n].labelText == Label(g.config, n)
      ensures r.nodes[n].group == Group(n, g.config.granularity)
    {
      if n in g1.nodes {
        assert r.nodes[n] == g1.nodes[n];
      }
    }
  }

  /** The nodes the loop creates have the default size, ids from the node count
      on, and the label and group of their name. */
  lemma {:induction false} AddNeighborsNewNodes(g: Graph, source: Node, neighbors: seq<string>)
    ensures FreshDefaults(g, AddNeighbors(g, source, neighbors))
    decreases |neighbors|
  {
    if |neighbors| > 0 {
      var front := neighbors[..|neighbors| - 1];
      AddNeighborsNewNodes(g, source, front);
      AddNeighborsUnfold(g, source, neighbors);
      FreshDefaultsStep(g, AddNeighbors(g, source, front), source, neighbors[|neighbors| - 1]);
    }
  }

  /** The edges of the neighbour loop, from edge `start` on: edge `start + j`
      runs from `source` to the node of neighbour `j`. */
  ghost predicate LoopEdges(r: Graph, start: nat, source: Node, neighbors: seq<string>) {
    && |r.edges| == start + |neighbors|
    && forall j :: 0 <= j < |neighbors| ==>
         neighbors[j] in r.nodes
         && r.edges[start + j] == Edge(start + j, source.id, r.nodes[neighbors[j]].id, EDGE_SIZE, EDGE_KIND)
  }

  /** One more pass of the loop extends its edges by the new neighbour's edge. */
  lemma LoopEdgesStep(g1: Graph, start: nat, source: Node, neighbors: seq<string>)
    requires |neighbors| > 0
    requires LoopEdges(g1, start, source, neighbors[..|neighbors| - 1])
    ensures LoopEdges(AddNeighbor(g1, source, neighbors[|neighbors| - 1]), start, source, neighbors)
  {
    var r := AddNeighbor(g1, source, neighbors[|neighbors| - 1]);
    LoopEdgesExtend(g1, r, start, source, neighbors);
  }

  /** `r` extends `g1` by the edge to the last neighbour, so it extends the
      loop's edges by it. */
  lemma LoopEdgesExtend(g1: Graph, r: Graph, start: nat, source: Node, neighbors: seq<string>)
    requires |neighbors| > 0
    requires LoopEdges(g1, start, source, neighbors[..|neighbors| - 1])
    requires |r.edges| == |g1.edges| + 1 && KeepsEdges(g1.edges, r.edges)
    requires forall n :: n in g1.nodes ==> n in r.nodes && r.nodes[n] == g1.nodes[n]
    requires neighbors[|neighbors| - 1] in r.nodes
    requires r.edges[|g1.edges|]
          == Edge(|g1.edges|, source.id, r.nodes[neighbors[|neighbors| - 1]].id, EDGE_SIZE, EDGE_KIND)
    ensures LoopEdges(r, start, source, neighbors)
  {
    var front := neighbors[..|neighbors| - 1];
    forall j | 0 <= j < |neighbors|
      ensures neighbors[j] in r.nodes
      ensures r.edges[start + j] == Edge(start + j, source.id, r.nodes[neighbors[j]].id, EDGE_SIZE, EDGE_KIND)
    {
      if j < |front| {
        var n := front[j];
        assert neighbors[j] == n;
        assert n in g1.nodes;
        assert r.edges[start + j] == g1.edges[start + j];
      }
    }
  }

  /** The loop appends one edge per neighbour, in order, from `source` to the
      neighbour's node, and leaves the earlier edges alone. */
  lemma {:induction false} AddNeighborsEdges(g: Graph, source: Node, neighbors: seq<string>)
    ensures var r := AddNeighbors(g, source, neighbors);
      && KeepsEdges(g.edges, r.edges)
      && forall k :: |g.edges| <= k < |r.edges| ==>
           r.edges[k] == Edge(k, source.id, r.nodes[neighbors[k - |g.edges|]].id, EDGE_SIZE, EDGE_KIND)
    decreases |neighbors|
  {
    AddNeighborsLoopEdges(g, source, neighbors);
    var r := AddNeighbors(g, source, neighbors);
    forall k | |g.edges| <= k < |r.edges|
      ensures r.edges[k] == Edge(k, source.id, r.nodes[neighbors[k - |g.edges|]].id, EDGE_SIZE, EDGE_KIND)
    {
      var j := k - |g.edges|;
      assert neighbors[j] in r.nodes;
    }
  }

  lemma {:induction false} AddNeighborsLoopEdges(g: Graph, source: Node, neighbors: seq<string>)
    ensures var r := AddNeighbors(g, source, neighbors);
      KeepsEdges(g.edges, r.edges) && LoopEdges(r, |g.edges|, source, neighbors)
    decreases |neighbors|
  {
    if |neighbors| > 0 {
      var front := neighbors[..|neighbors| - 1];
      var last := neighbors[|neighbors| - 1];
      AddNeighborsLoopEdges(g, source, front);
      var g1 := AddNeighbors(g, source, front);
      AddNeighborsUnfold(g, source, neighbors);
      LoopEdgesStep(g1, |g.edges|, source, neighbors);
      KeepsEdgesTransitive(g.edges, g1.edges, AddNeighbor(g1, source, last).edges);
    }
  }

  /** The loop over `neighbors` is the loop over all but the last and one more pass. */
  lemma AddNeighborsUnfold(g: Graph, source: Node, neighbors: seq<string>)
    requires |neighbors| > 0
    ensures AddNeighbors(g, source, neighbors)
         == AddNeighbor(AddNeighbors(g, source, neighbors[..|neighbors| - 1]), source, neighbors[|neighbors| - 1])
  {
  }

  lemma KeepsEdgesTransitive(a: seq<Edge>, b: seq<Edge>, c: seq<Edge>)
    requires KeepsEdges(a, b) && KeepsEdges(b, c)
    ensures KeepsEdges(a, c)
  {
    forall i | 0 <= i < |a| ensures c[i] == a[i] {
      assert c[i] == b[i];
    }
  }

  /** The loop keeps a graph well formed when `source` is one of its nodes' ids. */
  lemma {:induction false} AddNeighborsWellFormed(g: Graph, source: Node, neighbors: seq<string>)
    requires WellFormed(g) && source.id < |g.nodes|
    ensures WellFormed(AddNeighbors(g, source, neighbors))
    decreases |neighbors|
  {
    if |neighbors| > 0 {
      var front := neighbors[..|neighbors| - 1];
      AddNeighborsWellFormed(g, source, front);
      AddNeighborWellFormed(AddNeighbors(g, source, front), source, neighbors[|neighbors| - 1]);
    }
  }

  /** `add(name, neighbors)` before its loop: `name`'s node, registered with
      size `|neighbors|` and then given that size even if it already existed. */
  function Register(g: Graph, name: string, count: nat): (r: Registration)
    ensures r.graph.config == g.config && r.graph.edges == g.edges
    ensures forall n :: n in r.graph.nodes <==> n in g.nodes || n == name
    ensures forall n :: n in g.nodes && n != name ==> r.graph.nodes[n] == g.nodes[n]
    ensures r.graph.nodes[name] == r.node && r.node.size == count
    ensures name in g.nodes ==> r.node == g.nodes[name].(size := count)
    ensures name !in g.nodes ==> r.node == AddNode(g, name, Some(count)).node
    ensures |r.graph.nodes| == if name in g.nodes then |g.nodes| else |g.nodes| + 1
    ensures WellFormed(g) ==> r.node.id < |r.graph.nodes|
  {
    var reg := GetOrAddNode(g, name, Some(count));
    var node := reg.node.(size := count);
    Registration(reg.graph.(nodes := reg.graph.nodes[name := node]), node)
  }

  /** `add(name, neighbors)`: registers `name` with size `|neighbors|`,
      overwriting the size of an existing node, then each neighbour in
      iteration order with an edge from `name` to it. */
  function Add(g: Graph, name: string, neighbors: seq<string>): (r: Graph)
  {
    var reg := Register(g, name, |neighbors|);
    AddNeighbors(reg.graph, reg.node, neighbors)
  }

  /** The nodes `add` leaves: `name` and the neighbours are added, `name` has
      size `|neighbors|` whether or not it existed, and every other node is
      kept as it was, so a neighbour that is `name` itself keeps size
      `|neighbors|` and one that existed keeps its size. */
  lemma AddNodes(g: Graph, name: string, neighbors: seq<string>)
    ensures var r := Add(g, name, neighbors);
      && r.config == g.config
      && (forall n :: n in r.nodes <==> n in g.nodes || n == name || n in neighbors)
      && r.nodes[name].size == |neighbors|
      && (name in g.nodes ==> r.nodes[name] == g.nodes[name].(size := |neighbors|))
      && (forall n :: n in g.nodes && n != name ==> r.nodes[n] == g.nodes[n])
  {
  }

  /** The nodes `add` creates: `name`, if new, gets the next id; new neighbours
      get size 1; all of them get ids from the old node count on and the label
      and group of their name. */
  lemma AddNewNodes(g: Graph, name: string, neighbors: seq<string>)
    ensures var r := Add(g, name, neighbors);
      && (name !in g.nodes ==> r.nodes[name].id == |g.nodes|)
      && (forall n :: n in r.nodes && n !in g.nodes && n != name ==> r.nodes[n].size == DEFAULT_NODE_SIZE)
      && (forall n :: n in r.nodes && n !in g.nodes ==>
            && r.nodes[n].id >= |g.nodes|
            && r.nodes[n].labelText == Label(g.config, n)
            && r.nodes[n].group == Group(n, g.config.granularity))
  {
    var reg := Register(g, name, |neighbors|);
    AddNeighborsNewNodes(reg.graph, reg.node, neighbors);
    var r := Add(g, name, neighbors);
    forall n | n in r.nodes && n !in g.nodes
      ensures r.nodes[n].id >= |g.nodes|
      ensures r.nodes[n].labelText == Label(g.config, n)
      ensures r.nodes[n].group == Group(n, g.config.granularity)
    {
      if n == name {
        assert r.nodes[n] == reg.node;
      } else {
        assert n !in reg.graph.nodes;
      }
    }
  }

  /** `add` appends one edge per neighbour and leaves the earlier edges alone;
      edges are never merged, not even with equal ones from an earlier call. */
  lemma AddKeepsEdges(g: Graph, name: string, neighbors: seq<string>)
    ensures |Add(g, name, neighbors).edges| == |g.edges| + |neighbors|
    ensures KeepsEdges(g.edges, Add(g, name, neighbors).edges)
  {
    var reg := Register(g, name, |neighbors|);
    AddNeighborsEdges(reg.graph, reg.node, neighbors);
  }

  /** The edges `add` appends are numbered on from the earlier count and run
      from `name`'s node to each neighbour's node in iteration order, whatever
      the relation. */
  lemma AddNewEdges(g: Graph, name: string, neighbors: seq<string>)
    ensures var r := Add(g, name, neighbors);
      forall k :: |g.edges| <= k < |r.edges| ==>
        r.edges[k] == Edge(k, r.nodes[name].id, r.nodes[neighbors[k - |g.edges|]].id, EDGE_SIZE, EDGE_KIND)
  {
    var reg := Register(g, name, |neighbors|);
    AddNeighborsEdges(reg.graph, reg.node, neighbors);
    var r := Add(g, name, neighbors);
    assert r == AddNeighbors(reg.graph, reg.node, neighbors);
    assert name in reg.graph.nodes && r.nodes[name] == reg.node;
    assert |reg.graph.edges| == |g.edges|;
    forall k | |g.edges| <= k < |r.edges|
      ensures r.edges[k] == Edge(k, r.nodes[name].id, r.nodes[neighbors[k - |g.edges|]].id, EDGE_SIZE, EDGE_KIND)
    {
      var j := k - |g.edges|;
      assert neighbors[j] in neighbors;
      assert r.edges[k] == Edge(k, reg.node.id, r.nodes[neighbors[j]].id, EDGE_SIZE, EDGE_KIND);
    }
  }

  /** Registering keeps a graph well formed: the node keeps its id, only its
      size changes. */
  lemma RegisterWellFormed(g: Graph, name: string, count: nat)
    requires WellFormed(g)
    ensures WellFormed(Register(g, name, count).graph)
  {
    var reg := GetOrAddNode(g, name, Some(count));
    GetOrAddNodeWellFormed(g, name, Some(count));
    var r := Register(g, name, count);
    var node := reg.node.(size := count);
    assert r.graph == reg.graph.(nodes := reg.graph.nodes[name := node]);
    assert name in reg.graph.nodes && reg.graph.nodes[name] == reg.node;
    RetagWellFormed(reg.graph, name, node);
  }

  /** Replacing a node by one with the same id keeps a graph well formed. */
  lemma RetagWellFormed(g: Graph, name: string, node: Node)
    requires WellFormed(g) && name in g.nodes && node.id == g.nodes[name].id
    ensures WellFormed(g.(nodes := g.nodes[name := node]))
  {
    var b := g.(nodes := g.nodes[name := node]);
    assert b.nodes.Keys == g.nodes.Keys;
    assert |b.nodes| == |g.nodes|;
    assert forall n :: n in b.nodes ==> n in g.nodes && b.nodes[n].id == g.nodes[n].id;
    assert UniqueIds(b.nodes) by {
      forall x, y | x in b.nodes && y in b.nodes && b.nodes[x].id == b.nodes[y].id ensures x == y {
        assert g.nodes[x].id == g.nodes[y].id;
      }
    }
  }

  /** `add` keeps a graph well formed. */
  lemma AddWellFormed(g: Graph, name: string, neighbors: seq<string>)
    requires WellFormed(g)
    ensures WellFormed(Add(g, name, neighbors))
  {
    var reg := Register(g, name, |neighbors|);
    RegisterWellFormed(g, name, |neighbors|);
    AddNeighborsWellFormed(reg.graph, reg.node, neighbors);
  }

  /** The graph with its relation set to `relation`. */
  function WithRelation(g: Graph, relation: Relation): Graph {
    g.(config := g.config.(relation := relation))
  }

  /** The neighbour loop does the same under either relation. */
  lemma {:induction false} AddNeighborsIgnoresRelation(g: Graph, relation: Relation, source: Node, neighbors: seq<string>)
    ensures AddNeighbors(WithRelation(g, relation), source, neighbors)
         == WithRelation(AddNeighbors(g, source, neighbors), relation)
    decreases |neighbors|
  {
    if |neighbors| > 0 {
      AddNeighborsIgnoresRelation(g, relation, source, neighbors[..|neighbors| - 1]);
    }
  }

  /** `add` builds the same nodes and edges whichever relation the graph was
      configured with: the swap in `_add_edge` comes too late to matter. */
  lemma AddIgnoresRelation(g: Graph, relation: Relation, name: string, neighbors: seq<string>)
    ensures Add(WithRelation(g, relation), name, neighbors) == WithRelation(Add(g, name, neighbors), relation)
  {
    var reg := Register(g, name, |neighbors|);
    var reg' := Register(WithRelation(g, relation), name, |neighbors|);
    assert reg'.graph == WithRelation(reg.graph, relation) && reg'.node == reg.node;
    AddNeighborsIgnoresRelation(reg.graph, relation, reg.node, neighbors);
  }

  /** The first of the two files: `a` with neighbour `b` on an empty graph. */
  lemma FirstOfTwo(config: Config, a: string, b: string)
    requires a != b
    ensures var g := Add(Empty(config), a, [b]);
      && g.nodes.Keys == {a, b}
      && g.nodes[a].id == 0 && g.nodes[a].size == 1
      && g.nodes[b].id == 1
      && g.edges == [Edge(0, 0, 1, EDGE_SIZE, EDGE_KIND)]
  {
    var reg := Register(Empty(config), a, 1);
    RegisterIntoEmpty(config, a, 1);
    AddNeighborsUnfold(reg.graph, reg.node, [b]);
    assert [b][..0] == [];
    assert AddNeighbors(reg.graph, reg.node, []) == reg.graph;
    NeighborOfFirst(reg.graph, reg.node, a, b);
  }

  /** Registering a file in an empty graph gives it id 0 and makes it the only node. */
  lemma RegisterIntoEmpty(config: Config, name: string, count: nat)
    ensures var reg := Register(Empty(config), name, count);
      && reg.node.id == 0 && reg.node.size == count
      && reg.graph.nodes.Keys == {name} && |reg.graph.nodes| == 1
      && reg.graph.nodes[name] == reg.node
      && reg.graph.edges == []
  {
    var reg := Register(Empty(config), name, count);
    assert reg.graph.nodes.Keys == {name};
  }

  /** The first neighbour of the only node gets id 1 and edge 0. */
  lemma NeighborOfFirst(g: Graph, source: Node, a: string, b: string)
    requires a != b && g.nodes.Keys == {a} && |g.nodes| == 1 && g.edges == []
    requires g.nodes[a] == source && source.id == 0
    ensures var r := AddNeighbor(g, source, b);
      && r.nodes.Keys == {a, b}
      && r.nodes[a] == source
      && r.nodes[b].id == 1
      && r.edges == [Edge(0, 0, 1, EDGE_SIZE, EDGE_KIND)]
  {
    var r := AddNeighbor(g, source, b);
    assert b !in g.nodes;
    assert r.nodes.Keys == {a, b};
    assert |r.edges| == 1;
  }

  /** Two files, `a` including `b` and `b` including nothing, registered in that
      order: `a` gets id 0 and size 1, `b` id 1 and size 0, and the one edge runs
      from `a` to `b` under either relation. */
  lemma TwoFiles(config: Config, a: string, b: string)
    requires a != b
    ensures var g := Add(Add(Empty(config), a, [b]), b, []);
      && g.nodes.Keys == {a, b}
      && g.nodes[a].id == 0 && g.nodes[a].size == 1
      && g.nodes[b].id == 1 && g.nodes[b].size == 0
      && g.edges == [Edge(0, 0, 1, EDGE_SIZE, EDGE_KIND)]
  {
    var g1 := Add(Empty(config), a, [b]);
    FirstOfTwo(config, a, b);
    AddNodes(g1, b, []);
    AddKeepsEdges(g1, b, []);
  }
}

=== FILE: platform.dfy ===
/** What the include-graph builder asks of its environment. The filesystem
    calls and the iteration order of Python sets are not modelled; each is a
    parameter, so every property proved here holds for every filesystem. */
module Platform {
  import opened Wrappers

  datatype Host = Host(
    /** `os.path.join(prefix, path)`. */
    join: (string, string) -> string,
    /** `os.path.realpath(path)`. */
    realpath: string -> string,
    /** `os.path.exists(path)`. */
    pathExists: string -> bool,
    /** The files `glob(directory, pattern)` yields: an `os.walk` of the
        directory filtered by `fnmatch`, each joined onto its directory. */
    glob: (string, string) -> seq<string>,
    /** `os.path.isdir(path)`. */
    isDirectory: string -> bool,
    /** The lines iterating over `open(path)` yields, each with its line break;
        `None` when opening or reading the file raises. */
    read: string -> Option<seq<string>>,
    /** The order in which iterating over a Python set visits its elements. */
    order: set<string> -> seq<string>)

  /** `order` visits every element of every set exactly once, as set iteration does. */
  ghost predicate EnumeratesSets(h: Host) {
    forall s: set<string> {:trigger h.order(s)} ::
      |h.order(s)| == |s| && forall x :: x in h.order(s) <==> x in s
  }
}

=== FILE: posixpath.dfy ===
/** The two `os.path` string functions that node labels and groups are derived
    from, as Python's `posixpath` defines them: pure operations on
    `/`-separated strings that never consult the filesystem. */
module PosixPath {

  /** `os.sep` on POSIX. */
  const SEP: char := '/'

  /** Every character of `s` is a separator. */
  predicate AllSeparators(s: string) {
    forall k :: 0 <= k < |s| ==> s[k] == SEP
  }

  /** `p.rfind(SEP) + 1`: where the final path component starts. */
  function TailStart(p: string): (r: nat)
    ensures r <= |p|
    ensures r == 0 || p[r - 1] == SEP
    ensures forall k :: r <= k < |p| ==> p[k] != SEP
  {
    if |p| == 0 then 0
    else if p[|p| - 1] == SEP then |p|
    else TailStart(p[..|p| - 1])
  }

  /** `s.rstrip(SEP)`. */
  function StripTrailing(s: string): (r: string)
    ensures |r| <= |s| && r == s[..|r|]
    ensures r == [] || r[|r| - 1] != SEP
    ensures forall k :: |r| <= k < |s| ==> s[k] == SEP
  {
    if |s| == 0 || s[|s| - 1] != SEP then s
    else StripTrailing(s[..|s| - 1])
  }

  /** `os.path.basename(p)`: the text after the last separator. */
  function Basename(p: string): (r: string)
    ensures SEP !in r
    ensures |r| <= |p| && r == p[|p| - |r|..]
    ensures |r| < |p| ==> p[|p| - |r| - 1] == SEP
  {
    p[TailStart(p)..]
  }

  /** `os.path.dirname(p)`: the text before the last separator, with the
      separators that end it removed unless it consists of separators only
      (so the dirname of `/x` is `/`). */
  function Dirname(p: string): (r: string)
    ensures |r| <= |p| && r == p[..|r|]
    ensures |r| + |Basename(p)| <= |p|
    ensures forall k :: |r| <= k < |p| - |Basename(p)| ==> p[k] == SEP
    ensures r == [] || r[|r| - 1] != SEP || AllSeparators(r)
    ensures AllSeparators(p[..TailStart(p)]) ==> r == p[..TailStart(p)]
  {
    var head := p[..TailStart(p)];
    assert |Basename(p)| == |p| - |head|;
    if head != [] && !AllSeparators(head) then StripTrailing(head) else head
  }
}

=== FILE: pystr.dfy ===
/** The Python built-ins the group derivation relies on: `str.split` and `str.join`
    with a one-character separator, and list slicing `xs[start:stop]`. */
module PyStr {

  /** `sep.join(pieces)`. */
  function Join(pieces: seq<string>, sep: char): string
  {
    if |pieces| == 0 then ""
    else if |pieces| == 1 then pieces[0]
    else pieces[0] + [sep] + Join(pieces[1..], sep)
  }

  /** `s.split(sep)`: the maximal runs between separators, so there is always at
      least one piece and joining the pieces gives `s` back. */
  function Split(s: string, sep: char): (r: seq<string>)
    ensures |r| >= 1
    ensures forall i :: 0 <= i < |r| ==> sep !in r[i]
    ensures Join(r, sep) == s
    decreases |s|
  {
    if |s| == 0 then [""]
    else
      var rest := Split(s[1..], sep);
      if s[0] == sep then
        assert s == [sep] + s[1..];
        [""] + rest
      else
        var r := [[s[0]] + rest[0]] + rest[1..];
        assert Join(r, sep) == s by {
          if |rest| == 1 {
            assert s == [s[0]] + s[1..];
          } else {
            assert r[1..] == rest[1..];
            assert Join(rest, sep) == rest[0] + [sep] + Join(rest[1..], sep);
            assert s == [s[0]] + s[1..];
          }
        }
        r
  }

  /** Splitting a piece without separators that is followed by a separator. */
  lemma {:induction false} SplitPiece(a: string, b: string, sep: char)
    requires sep !in a
    ensures Split(a + [sep] + b, sep) == [a] + Split(b, sep)
    decreases |a|
  {
    if |a| == 0 {
      assert a + [sep] + b == [sep] + b;
      assert ([sep] + b)[1..] == b;
    } else {
      var s := a + [sep] + b;
      assert s[0] == a[0] && s[0] != sep;
      assert s[1..] == a[1..] + [sep] + b;
      SplitPiece(a[1..], b, sep);
      var rest := Split(s[1..], sep);
      assert rest[0] == a[1..] && rest[1..] == Split(b, sep);
      assert [a[0]] + a[1..] == a;
    }
  }

  /** A string without separators splits into itself alone. */
  lemma {:induction false} SplitWhole(a: string, sep: char)
    requires sep !in a
    ensures Split(a, sep) == [a]
    decreases |a|
  {
    if |a| > 0 {
      SplitWhole(a[1..], sep);
      assert [a[0]] + a[1..] == a;
    }
  }

  /** Round trip: splitting a join of separator-free pieces gives the pieces back. */
  lemma {:induction false} SplitJoin(pieces: seq<string>, sep: char)
    requires |pieces| >= 1
    requires forall i :: 0 <= i < |pieces| ==> sep !in pieces[i]
    ensures Split(Join(pieces, sep), sep) == pieces
    decreases |pieces|
  {
    if |pieces| == 1 {
      SplitWhole(pieces[0], sep);
    } else {
      SplitJoin(pieces[1..], sep);
      SplitPiece(pieces[0], Join(pieces[1..], sep), sep);
      assert [pieces[0]] + pieces[1..] == pieces;
    }
  }

  /** Joining a first piece onto at least one more puts one separator after it. */
  lemma JoinCons(first: string, rest: seq<string>, sep: char)
    requires |rest| >= 1
    ensures Join([first] + rest, sep) == first + [sep] + Join(rest, sep)
  {
    assert ([first] + rest)[1..] == rest;
  }

  /** A join ends with its last piece. */
  lemma {:induction false} JoinEndsWithLast(pieces: seq<string>, sep: char)
    requires |pieces| >= 1
    ensures |pieces[|pieces| - 1]| <= |Join(pieces, sep)|
    ensures Join(pieces, sep)[|Join(pieces, sep)| - |pieces[|pieces| - 1]|..] == pieces[|pieces| - 1]
    decreases |pieces|
  {
    if |pieces| > 1 {
      JoinEndsWithLast(pieces[1..], sep);
      assert pieces[1..][|pieces| - 2] == pieces[|pieces| - 1];
    }
  }

  /** How CPython normalises one bound of a slice with step 1: a negative bound
      counts from the end, and the result is clamped to `[0, n]`. */
  function SliceBound(i: int, n: nat): (r: nat)
    ensures r <= n
    ensures 0 <= i <= n ==> r == i
    ensures -(n as int) <= i < 0 ==> r == i + n
    ensures i < -(n as int) ==> r == 0
    ensures i > n ==> r == n
  {
    if i < 0 then (if i + n < 0 then 0 else i + n)
    else if i > n then n
    else i
  }

  /** `s[start:stop]` on a Python list: empty when the normalised start is not
      before the normalised stop. */
  function Slice<T>(s: seq<T>, start: int, stop: int): (r: seq<T>)
    ensures 0 <= start <= stop <= |s| ==> r == s[start..stop]
    ensures SliceBound(start, |s|) + |r| <= |s|
    ensures forall i :: 0 <= i < |r| ==> r[i] == s[SliceBound(start, |s|) + i]
    ensures |r| == if SliceBound(start, |s|) < SliceBound(stop, |s|)
                   then SliceBound(stop, |s|) - SliceBound(start, |s|) else 0
  {
    var lo := SliceBound(start, |s|);
    var hi := SliceBound(stop, |s|);
    if lo < hi then s[lo..hi] else []
  }
}

=== FILE: resolve.dfy ===
/** Turning the include tokens of a file into paths: `try_prefixes` and
    `get_includes`. */
module Resolve {
  import opened Wrappers
  import opened Platform
  import opened Directive

  /** The path tried for `path` under `prefix`: `realpath(join(prefix, path))`. */
  function Candidate(h: Host, prefix: string, path: string): string {
    h.realpath(h.join(prefix, path))
  }

  /** Some prefix yields an existing candidate for `path`. */
  ghost predicate Resolvable(h: Host, path: string, prefixes: seq<string>) {
    exists i :: 0 <= i < |prefixes| && h.pathExists(Candidate(h, prefixes[i], path))
  }

  /** `try_prefixes(path, prefixes)`: the candidate under the earliest prefix
      that exists, or `path` itself when there is none. */
  function TryPrefixes(h: Host, path: string, prefixes: seq<string>): (r: string)
    ensures !Resolvable(h, path, prefixes) ==> r == path
    ensures Resolvable(h, path, prefixes) ==>
      exists i :: 0 <= i < |prefixes| && r == Candidate(h, prefixes[i], path)
        && h.pathExists(r)
        && forall j :: 0 <= j < i ==> !h.pathExists(Candidate(h, prefixes[j], path))
    decreases |prefixes|
  {
    if |prefixes| == 0 then path
    else
      var full := Candidate(h, prefixes[0], path);
      if h.pathExists(full) then full
      else
        var r := TryPrefixes(h, path, prefixes[1..]);
        assert Resolvable(h, path, prefixes) ==> Resolvable(h, path, prefixes[1..]) by {
          if Resolvable(h, path, prefixes) {
            var i :| 0 <= i < |prefixes| && h.pathExists(Candidate(h, prefixes[i], path));
            assert i > 0 && prefixes[1..][i - 1] == prefixes[i];
          }
        }
        assert Resolvable(h, path, prefixes[1..]) ==> Resolvable(h, path, prefixes) by {
          if Resolvable(h, path, prefixes[1..]) {
            var i :| 0 <= i < |prefixes[1..]| && h.pathExists(Candidate(h, prefixes[1..][i], path));
            assert prefixes[i + 1] == prefixes[1..][i];
          }
        }
        assert Resolvable(h, path, prefixes) ==>
          exists i :: 0 <= i < |prefixes| && r == Candidate(h, prefixes[i], path)
            && h.pathExists(r)
            && forall j :: 0 <= j < i ==> !h.pathExists(Candidate(h, prefixes[j], path)) by {
          if Resolvable(h, path, prefixes) {
            var i :| 0 <= i < |prefixes[1..]| && r == Candidate(h, prefixes[1..][i], path)
              && h.pathExists(r)
              && forall j :: 0 <= j < i ==> !h.pathExists(Candidate(h, prefixes[1..][j], path));
            assert prefixes[i + 1] == prefixes[1..][i];
            forall j | 0 <= j < i + 1
              ensures !h.pathExists(Candidate(h, prefixes[j], path))
            {
              if j > 0 { assert prefixes[j] == prefixes[1..][j - 1]; }
            }
          }
        }
        r
  }

  /** Resolving against `front + back` tries all of `front` first: the answer
      is `front`'s when some prefix there resolves, and `back`'s otherwise. */
  lemma {:induction false} TryPrefixesAppend(h: Host, path: string, front: seq<string>, back: seq<string>)
    ensures TryPrefixes(h, path, front + back) ==
      if Resolvable(h, path, front) then TryPrefixes(h, path, front) else TryPrefixes(h, path, back)
    decreases |front|
  {
    if |front| == 0 {
      assert front + back == back;
    } else {
      assert (front + back)[0] == front[0];
      assert (front + back)[1..] == front[1..] + back;
      if !h.pathExists(Candidate(h, front[0], path)) {
        TryPrefixesAppend(h, path, front[1..], back);
        assert Resolvable(h, path, front) <==> Resolvable(h, path, front[1..]) by {
          if Resolvable(h, path, front) {
            var i :| 0 <= i < |front| && h.pathExists(Candidate(h, front[i], path));
            assert front[1..][i - 1] == front[i];
          }
          if Resolvable(h, path, front[1..]) {
            var i :| 0 <= i < |front[1..]| && h.pathExists(Candidate(h, front[1..][i], path));
            assert front[i + 1] == front[1..][i];
          }
        }
      } else {
        assert Resolvable(h, path, front) by {
          assert h.pathExists(Candidate(h, front[0], path));
        }
      }
    }
  }

  /** The path a line contributes, when it is an include directive. */
  function LineInclude(h: Host, line: string, prefixes: seq<string>): (r: Option<string>)
    ensures r.Some? <==> IncludeToken(line).Some?
    ensures r.Some? && Resolvable(h, IncludeToken(line).value, prefixes) ==> h.pathExists(r.value)
    ensures r.Some? && !Resolvable(h, IncludeToken(line).value, prefixes) ==> r.value == IncludeToken(line).value
  {
    match IncludeToken(line)
    case Some(token) => Some(TryPrefixes(h, token, prefixes))
    case None => None
  }

  /** What each line contributes, in order. */
  function Contributions(h: Host, lines: seq<string>, prefixes: seq<string>): (r: seq<Option<string>>)
    ensures |r| == |lines|
    ensures forall i :: 0 <= i < |lines| ==> r[i] == LineInclude(h, lines[i], prefixes)
  {
    seq(|lines|, i requires 0 <= i < |lines| => LineInclude(h, lines[i], prefixes))
  }

  /** The set the loop builds: every value some entry carries. */
  function Collect(contributions: seq<Option<string>>): (r: set<string>)
    ensures forall x :: x in r <==> exists i :: 0 <= i < |contributions| && contributions[i] == Some(x)
    decreases |contributions|
  {
    if |contributions| == 0 then {}
    else
      var front := contributions[..|contributions| - 1];
      var last := contributions[|contributions| - 1];
      var earlier := Collect(front);
      assert forall i :: 0 <= i < |front| ==> front[i] == contributions[i];
      if last.Some? then earlier + {last.value} else earlier
  }

  /** `get_includes` on a file with these lines: the set of resolved tokens of
      the lines that are include directives. */
  function GetIncludes(h: Host, lines: seq<string>, prefixes: seq<string>): (r: set<string>)
    ensures forall x :: x in r <==>
      exists i :: 0 <= i < |lines| && LineInclude(h, lines[i], prefixes) == Some(x)
  {
    Collect(Contributions(h, lines, prefixes))
  }

  /** Repeating a line of a file adds nothing to its includes. */
  lemma RepeatedLine(h: Host, lines: seq<string>, k: nat, prefixes: seq<string>)
    requires k < |lines|
    ensures GetIncludes(h, lines + [lines[k]], prefixes) == GetIncludes(h, lines, prefixes)
  {
    var longer := lines + [lines[k]];
    forall x | x in GetIncludes(h, longer, prefixes)
      ensures x in GetIncludes(h, lines, prefixes)
    {
      var i :| 0 <= i < |longer| && LineInclude(h, longer[i], prefixes) == Some(x);
      if i == |lines| {
        assert longer[i] == lines[k];
      } else {
        assert longer[i] == lines[i];
      }
    }
    forall x | x in GetIncludes(h, lines, prefixes)
      ensures x in GetIncludes(h, longer, prefixes)
    {
      var i :| 0 <= i < |lines| && LineInclude(h, lines[i], prefixes) == Some(x);
      assert longer[i] == lines[i];
    }
  }
}

=== FILE: walk.dfy ===
/** `walk`: every file matched under every directory, in the order the loops
    visit them, read, reduced to its resolved includes and added to the graph. */
module Walk {
  import opened Wrappers
  import opened Platform
  import opened Directive
  import opened Resolve
  import opened IncludeGraph

  /** One file the walk visits: the real path of the directory it was found
      under, and the file's path. */
  datatype Job = Job(root: string, file: string)

  /** The files `glob(root, pattern)` yields, each with the root it was found under. */
  function PatternJobs(h: Host, root: string, pattern: string): (r: seq<Job>)
    ensures |r| == |h.glob(root, pattern)|
    ensures forall i :: 0 <= i < |r| ==> r[i] == Job(root, h.glob(root, pattern)[i])
  {
    var files := h.glob(root, pattern);
    seq(|files|, i requires 0 <= i < |files| => Job(root, files[i]))
  }

  /** The inner loops of `walk` for one directory: pattern by pattern, the files
      found under the directory's real path. */
  function DirectoryJobs(h: Host, directory: string, patterns: seq<string>): (r: seq<Job>)
    ensures forall j :: j in r <==>
      && j.root == h.realpath(directory)
      && exists p :: p in patterns && j.file in h.glob(h.realpath(directory), p)
    decreases |patterns|
  {
    if |patterns| == 0 then []
    else
      var root := h.realpath(directory);
      var here := PatternJobs(h, root, patterns[0]);
      var rest := DirectoryJobs(h, directory, patterns[1..]);
      assert forall j :: j in here <==> j.root == root && j.file in h.glob(root, patterns[0]) by {
        forall j ensures j in here <==> j.root == root && j.file in h.glob(root, patterns[0]) {
          if j.root == root && j.file in h.glob(root, patterns[0]) {
            var i :| 0 <= i < |h.glob(root, patterns[0])| && h.glob(root, patterns[0])[i] == j.file;
            assert here[i] == j;
          }
        }
      }
      assert forall p :: p in patterns <==> p == patterns[0] || p in patterns[1..] by {
        assert patterns == [patterns[0]] + patterns[1..];
      }
      here + rest
  }

  /** All the files `walk` visits, directory by directory. */
  function Jobs(h: Host, directories: seq<string>, patterns: seq<string>): (r: seq<Job>)
    ensures forall j :: j in r <==>
      exists d :: d in directories && j in DirectoryJobs(h, d, patterns)
    decreases |directories|
  {
    if |directories| == 0 then []
    else
      var rest := Jobs(h, directories[1..], patterns);
      assert forall d :: d in directories <==> d == directories[0] || d in directories[1..] by {
        assert directories == [directories[0]] + directories[1..];
      }
      var r := DirectoryJobs(h, directories[0], patterns) + rest;
      assert forall j :: j in r <==> exists d :: d in directories && j in DirectoryJobs(h, d, patterns) by {
        forall j ensures j in r <==> exists d :: d in directories && j in DirectoryJobs(h, d, patterns) {
          if j in DirectoryJobs(h, directories[0], patterns) {
            assert directories[0] in directories;
          }
        }
      }
      r
  }

  /** The walk can get past this file: it is skipped as a directory, or it can be read. */
  predicate Readable(h: Host, job: Job) {
    h.isDirectory(job.file) || h.read(job.file).Some?
  }

  /** The search path for the files found under `root`: the root itself, then
      the configured prefixes. */
  function SearchPath(root: string, prefixes: seq<string>): seq<string> {
    [root] + prefixes
  }

  /** The resolved includes of a file found under `root` with these lines:
      each directive's token next to the root when that path exists, and
      otherwise resolved against the configured prefixes alone. */
  function FileIncludes(h: Host, root: string, lines: seq<string>, prefixes: seq<string>): (r: set<string>)
    ensures forall x :: x in r <==>
      exists i :: 0 <= i < |lines| && IncludeToken(lines[i]).Some? &&
        x == (if h.pathExists(Candidate(h, root, IncludeToken(lines[i]).value))
              then Candidate(h, root, IncludeToken(lines[i]).value)
              else TryPrefixes(h, IncludeToken(lines[i]).value, prefixes))
  {
    forall i | 0 <= i < |lines| && IncludeToken(lines[i]).Some?
      ensures LineInclude(h, lines[i], SearchPath(root, prefixes)) == Some(
        if h.pathExists(Candidate(h, root, IncludeToken(lines[i]).value))
        then Candidate(h, root, IncludeToken(lines[i]).value)
        else TryPrefixes(h, IncludeToken(lines[i]).value, prefixes))
    {
      if h.pathExists(Candidate(h, root, IncludeToken(lines[i]).value)) {
        RootFirst(h, root, IncludeToken(lines[i]).value, prefixes);
      } else {
        RootMissed(h, root, IncludeToken(lines[i]).value, prefixes);
      }
    }
    GetIncludes(h, lines, SearchPath(root, prefixes))
  }

  /** The walk reaches every job: none is a file that cannot be read. */
  predicate AllReadable(h: Host, jobs: seq<Job>) {
    forall k :: 0 <= k < |jobs| ==> Readable(h, jobs[k])
  }

  /** `k` is the first job the walk cannot get past. */
  predicate FirstUnreadable(h: Host, jobs: seq<Job>, k: int) {
    0 <= k < |jobs| && !Readable(h, jobs[k]) && forall j :: 0 <= j < k ==> Readable(h, jobs[j])
  }

  /** The body of `walk` from `jobs` on: directories are skipped, every other
      file is read and added with its includes, in the order set iteration
      gives them. A file that cannot be read stops the walk with its path. */
  function Scan(h: Host, g: Graph, jobs: seq<Job>, prefixes: seq<string>): (r: Result<Graph, string>)
    ensures r.Ok? ==> r.value.config == g.config
    ensures r.Ok? ==> forall n :: n in g.nodes ==> n in r.value.nodes
    decreases |jobs|
  {
    if |jobs| == 0 then Ok(g)
    else
      var job := jobs[0];
      if h.isDirectory(job.file) then Scan(h, g, jobs[1..], prefixes)
      else
        match h.read(job.file)
        case None => Err(job.file)
        case Some(lines) =>
          var g' := Add(g, job.file, h.order(FileIncludes(h, job.root, lines, prefixes)));
          AddNodes(g, job.file, h.order(FileIncludes(h, job.root, lines, prefixes)));
          Scan(h, g', jobs[1..], prefixes)
  }

  /** The graph after scanning the first job, when it can be read. */
  function Step(h: Host, g: Graph, job: Job, prefixes: seq<string>): Graph
    requires Readable(h, job)
  {
    if h.isDirectory(job.file) then g
    else Add(g, job.file, h.order(FileIncludes(h, job.root, h.read(job.file).value, prefixes)))
  }

  lemma ScanUnfold(h: Host, g: Graph, jobs: seq<Job>, prefixes: seq<string>)
    requires |jobs| > 0
    ensures Readable(h, jobs[0]) ==> Scan(h, g, jobs, prefixes) == Scan(h, Step(h, g, jobs[0], prefixes), jobs[1..], prefixes)
    ensures !Readable(h, jobs[0]) ==> Scan(h, g, jobs, prefixes) == Err(jobs[0].file)
  {
  }

  lemma AllReadableCons(h: Host, jobs: seq<Job>)
    requires |jobs| > 0
    ensures AllReadable(h, jobs) <==> Readable(h, jobs[0]) && AllReadable(h, jobs[1..])
  {
    if Readable(h, jobs[0]) && AllReadable(h, jobs[1..]) {
      forall k | 0 <= k < |jobs| ensures Readable(h, jobs[k]) {
        if k > 0 { assert jobs[k] == jobs[1..][k - 1]; }
      }
    }
    if AllReadable(h, jobs) {
      forall k | 0 <= k < |jobs[1..]| ensures Readable(h, jobs[1..][k]) {
        assert jobs[1..][k] == jobs[k + 1];
      }
    }
  }

  /** The walk finishes exactly when every job can be got past. */
  lemma {:induction false} ScanSucceeds(h: Host, g: Graph, jobs: seq<Job>, prefixes: seq<string>)
    ensures Scan(h, g, jobs, prefixes).Ok? <==> AllReadable(h, jobs)
    decreases |jobs|
  {
    if |jobs| > 0 {
      ScanUnfold(h, g, jobs, prefixes);
      if Readable(h, jobs[0]) {
        ScanSucceeds(h, Step(h, g, jobs[0], prefixes), jobs[1..], prefixes);
      }
      AllReadableCons(h, jobs);
    }
  }

  /** A first unreadable job after a readable one is the first one of the longer list. */
  lemma FirstUnreadableShift(h: Host, jobs: seq<Job>, k: int)
    requires |jobs| > 0 && Readable(h, jobs[0]) && FirstUnreadable(h, jobs[1..], k)
    ensures FirstUnreadable(h, jobs, k + 1) && jobs[k + 1] == jobs[1..][k]
  {
    forall j | 0 <= j < k + 1 ensures Readable(h, jobs[j]) {
      if j > 0 { assert jobs[j] == jobs[1..][j - 1]; }
    }
  }

  /** A walk that stops names the first file it could not read. */
  lemma {:induction false} ScanStops(h: Host, g: Graph, jobs: seq<Job>, prefixes: seq<string>)
    ensures var r := Scan(h, g, jobs, prefixes);
      r.Err? ==> exists k :: FirstUnreadable(h, jobs, k) && jobs[k].file == r.error
    decreases |jobs|
  {
    var r := Scan(h, g, jobs, prefixes);
    if |jobs| > 0 && r.Err? {
      ScanUnfold(h, g, jobs, prefixes);
      if Readable(h, jobs[0]) {
        var g' := Step(h, g, jobs[0], prefixes);
        assert r == Scan(h, g', jobs[1..], prefixes);
        ScanStops(h, g', jobs[1..], prefixes);
        var k :| FirstUnreadable(h, jobs[1..], k) && jobs[1..][k].file == r.error;
        FirstUnreadableShift(h, jobs, k);
      } else {
        assert FirstUnreadable(h, jobs, 0);
      }
    }
  }

  /** `after` extends `before`: same settings, the old edges kept in place,
      every old node still there under its old id. */
  predicate Grows(before: Graph, after: Graph) {
    && after.config == before.config
    && KeepsEdges(before.edges, after.edges)
    && forall n :: n in before.nodes ==> n in after.nodes && after.nodes[n].id == before.nodes[n].id
  }

  lemma AddGrows(g: Graph, name: string, neighbors: seq<string>)
    ensures Grows(g, Add(g, name, neighbors))
  {
    AddNodes(g, name, neighbors);
    AddKeepsEdges(g, name, neighbors);
  }

  lemma GrowsTransitive(a: Graph, b: Graph, c: Graph)
    requires Grows(a, b) && Grows(b, c)
    ensures Grows(a, c)
  {
  }

  lemma StepGrows(h: Host, g: Graph, job: Job, prefixes: seq<string>)
    requires Readable(h, job)
    ensures Grows(g, Step(h, g, job, prefixes))
    ensures WellFormed(g) ==> WellFormed(Step(h, g, job, prefixes))
  {
    if !h.isDirectory(job.file) {
      var neighbors := h.order(FileIncludes(h, job.root, h.read(job.file).value, prefixes));
      AddGrows(g, job.file, neighbors);
      if WellFormed(g) {
        AddWellFormed(g, job.file, neighbors);
      }
    }
  }

  /** A finished walk only extends the graph it started from, and keeps it
      well formed. */
  lemma {:induction false} ScanGrows(h: Host, g: Graph, jobs: seq<Job>, prefixes: seq<string>)
    ensures var r := Scan(h, g, jobs, prefixes);
      r.Ok? ==> Grows(g, r.value) && (WellFormed(g) ==> WellFormed(r.value))
    decreases |jobs|
  {
    var r := Scan(h, g, jobs, prefixes);
    if |jobs| > 0 && r.Ok? {
      ScanUnfold(h, g, jobs, prefixes);
      var g' := Step(h, g, jobs[0], prefixes);
      StepGrows(h, g, jobs[0], prefixes);
      ScanGrows(h, g', jobs[1..], prefixes);
      GrowsTransitive(g, g', r.value);
    }
  }

  /** The names a scanned job contributes: the file and its resolved includes. */
  predicate Covers(h: Host, g: Graph, job: Job, prefixes: seq<string>)
    requires Readable(h, job)
  {
    !h.isDirectory(job.file) ==>
      && job.file in g.nodes
      && forall x :: x in FileIncludes(h, job.root, h.read(job.file).value, prefixes) ==> x in g.nodes
  }

  lemma StepCovers(h: Host, g: Graph, job: Job, prefixes: seq<string>)
    requires EnumeratesSets(h) && Readable(h, job)
    ensures Covers(h, Step(h, g, job, prefixes), job, prefixes)
  {
    if !h.isDirectory(job.file) {
      var includes := FileIncludes(h, job.root, h.read(job.file).value, prefixes);
      AddNodes(g, job.file, h.order(includes));
      assert forall x :: x in includes ==> x in h.order(includes);
    }
  }

  lemma CoversGrows(h: Host, g: Graph, g': Graph, job: Job, prefixes: seq<string>)
    requires Readable(h, job) && Covers(h, g, job, prefixes) && Grows(g, g')
    ensures Covers(h, g', job, prefixes)
  {
  }

  /** Every job can be got past, and every scanned file and its includes are nodes of `g`. */
  predicate AllCovered(h: Host, g: Graph, jobs: seq<Job>, prefixes: seq<string>) {
    forall k :: 0 <= k < |jobs| ==> Readable(h, jobs[k]) && Covers(h, g, jobs[k], prefixes)
  }

  lemma AllCoveredCons(h: Host, g: Graph, jobs: seq<Job>, prefixes: seq<string>)
    requires |jobs| > 0 && Readable(h, jobs[0]) && Covers(h, g, jobs[0], prefixes)
    requires AllCovered(h, g, jobs[1..], prefixes)
    ensures AllCovered(h, g, jobs, prefixes)
  {
    forall k | 0 <= k < |jobs| ensures Readable(h, jobs[k]) && Covers(h, g, jobs[k], prefixes) {
      if k > 0 {
        assert jobs[k] == jobs[1..][k - 1];
      }
    }
  }

  /** After a finished walk, every file scanned and every include resolved from
      it is a node. */
  lemma {:induction false} ScanCovers(h: Host, g: Graph, jobs: seq<Job>, prefixes: seq<string>)
    requires EnumeratesSets(h)
    ensures var r := Scan(h, g, jobs, prefixes);
      r.Ok? ==> AllCovered(h, r.value, jobs, prefixes)
    decreases |jobs|
  {
    var r := Scan(h, g, jobs, prefixes);
    if |jobs| > 0 && r.Ok? {
      ScanUnfold(h, g, jobs, prefixes);
      ScanSucceeds(h, g, jobs, prefixes);
      AllReadableCons(h, jobs);
      var g' := Step(h, g, jobs[0], prefixes);
      assert r == Scan(h, g', jobs[1..], prefixes);
      StepCovers(h, g, jobs[0], prefixes);
      ScanGrows(h, g', jobs[1..], prefixes);
      CoversGrows(h, g', r.value, jobs[0], prefixes);
      ScanCovers(h, g', jobs[1..], prefixes);
      AllCoveredCons(h, r.value, jobs, prefixes);
    }
  }

  /** The job is a file the walk reads and adds. */
  predicate Scanned(h: Host, job: Job) {
    !h.isDirectory(job.file) && h.read(job.file).Some?
  }

  /** How many distinct includes a scanned job's file resolves to. */
  function IncludeCount(h: Host, job: Job, prefixes: seq<string>): nat
    requires Scanned(h, job)
  {
    |FileIncludes(h, job.root, h.read(job.file).value, prefixes)|
  }

  /** No later job names the same file as job `k`. */
  predicate LastVisit(jobs: seq<Job>, k: int) {
    0 <= k < |jobs| && forall j :: k < j < |jobs| ==> jobs[j].file != jobs[k].file
  }

  /** The node of every file's last scan has that scan's include count as size. */
  predicate SizesFromLastScan(h: Host, g: Graph, jobs: seq<Job>, prefixes: seq<string>) {
    forall k :: 0 <= k < |jobs| && LastVisit(jobs, k) && Scanned(h, jobs[k]) ==>
      jobs[k].file in g.nodes && g.nodes[jobs[k].file].size == IncludeCount(h, jobs[k], prefixes)
  }

  /** Scanning a file sets its size to its number of distinct includes. */
  lemma StepSize(h: Host, g: Graph, job: Job, prefixes: seq<string>)
    requires EnumeratesSets(h) && Scanned(h, job)
    ensures job.file in Step(h, g, job, prefixes).nodes
    ensures Step(h, g, job, prefixes).nodes[job.file].size == IncludeCount(h, job, prefixes)
  {
    var includes := FileIncludes(h, job.root, h.read(job.file).value, prefixes);
    AddNodes(g, job.file, h.order(includes));
  }

  /** Scanning a job leaves the node of any other file as it was. */
  lemma StepKeepsNode(h: Host, g: Graph, job: Job, prefixes: seq<string>, f: string)
    requires Readable(h, job) && f in g.nodes && f != job.file
    ensures f in Step(h, g, job, prefixes).nodes
    ensures Step(h, g, job, prefixes).nodes[f] == g.nodes[f]
  {
    if !h.isDirectory(job.file) {
      var includes := FileIncludes(h, job.root, h.read(job.file).value, prefixes);
      AddNodes(g, job.file, h.order(includes));
    }
  }

  /** A walk over jobs that never name `f` leaves the node of `f` as it was:
      registering `f` as someone's include does not touch an existing node. */
  lemma {:induction false} ScanKeepsNode(h: Host, g: Graph, jobs: seq<Job>, prefixes: seq<string>, f: string)
    requires f in g.nodes
    requires forall j :: 0 <= j < |jobs| ==> jobs[j].file != f
    ensures var r := Scan(h, g, jobs, prefixes);
      r.Ok? ==> f in r.value.nodes && r.value.nodes[f] == g.nodes[f]
    decreases |jobs|
  {
    var r := Scan(h, g, jobs, prefixes);
    if |jobs| > 0 && r.Ok? {
      ScanUnfold(h, g, jobs, prefixes);
      var g' := Step(h, g, jobs[0], prefixes);
      StepKeepsNode(h, g, jobs[0], prefixes, f);
      AvoidsTail(jobs, f);
      ScanKeepsNode(h, g', jobs[1..], prefixes, f);
    }
  }

  /** The jobs after the first avoid every file the whole list avoids. */
  lemma AvoidsTail(jobs: seq<Job>, f: string)
    requires |jobs| > 0 && forall j :: 0 <= j < |jobs| ==> jobs[j].file != f
    ensures forall j :: 0 <= j < |jobs[1..]| ==> jobs[1..][j].file != f
  {
    assert forall j :: 0 <= j < |jobs[1..]| ==> jobs[1..][j] == jobs[j + 1];
  }

  /** The last visit of a file among `jobs[1..]` is its last visit among `jobs`. */
  lemma LastVisitTail(jobs: seq<Job>, k: int)
    requires 0 < k && LastVisit(jobs, k)
    ensures LastVisit(jobs[1..], k - 1) && jobs[1..][k - 1] == jobs[k]
  {
    assert forall j :: k - 1 < j < |jobs[1..]| ==> jobs[1..][j] == jobs[j + 1];
  }

  /** When the first job is the last visit of its file, no later job names it. */
  lemma LastVisitFirst(jobs: seq<Job>)
    requires LastVisit(jobs, 0)
    ensures forall j :: 0 <= j < |jobs[1..]| ==> jobs[1..][j].file != jobs[0].file
  {
    assert forall j :: 0 <= j < |jobs[1..]| ==> jobs[1..][j] == jobs[j + 1];
  }

  /** The first job's scan decides its file's size when no later job names it. */
  lemma FirstScanSize(h: Host, g: Graph, jobs: seq<Job>, prefixes: seq<string>)
    requires EnumeratesSets(h) && LastVisit(jobs, 0) && Scanned(h, jobs[0])
    ensures var r := Scan(h, Step(h, g, jobs[0], prefixes), jobs[1..], prefixes);
      r.Ok? ==> (jobs[0].file in r.value.nodes &&
                 r.value.nodes[jobs[0].file].size == IncludeCount(h, jobs[0], prefixes))
  {
    StepSize(h, g, jobs[0], prefixes);
    LastVisitFirst(jobs);
    ScanKeepsNode(h, Step(h, g, jobs[0], prefixes), jobs[1..], prefixes, jobs[0].file);
  }

  /** After a finished walk, the size of every scanned file is the number of
      distinct includes of its last scan: each `add` overwrites the size of its
      own file and of no other existing node, whatever the order. */
  lemma {:induction false} ScanSizes(h: Host, g: Graph, jobs: seq<Job>, prefixes: seq<string>)
    requires EnumeratesSets(h)
    ensures var r := Scan(h, g, jobs, prefixes);
      r.Ok? ==> SizesFromLastScan(h, r.value, jobs, prefixes)
    decreases |jobs|
  {
    var r := Scan(h, g, jobs, prefixes);
    if |jobs| > 0 && r.Ok? {
      ScanUnfold(h, g, jobs, prefixes);
      var g' := Step(h, g, jobs[0], prefixes);
      assert r == Scan(h, g', jobs[1..], prefixes);
      ScanSizes(h, g', jobs[1..], prefixes);
      forall k | 0 <= k < |jobs| && LastVisit(jobs, k) && Scanned(h, jobs[k])
        ensures jobs[k].file in r.value.nodes
        ensures r.value.nodes[jobs[k].file].size == IncludeCount(h, jobs[k], prefixes)
      {
        if k == 0 {
          FirstScanSize(h, g, jobs, prefixes);
        } else {
          LastVisitTail(jobs, k);
        }
      }
    }
  }

  /** Scanning `job` puts `n` in the graph: `n` is the scanned file or one of
      its resolved includes. */
  predicate Contributes(h: Host, job: Job, prefixes: seq<string>, n: string) {
    Scanned(h, job) && (n == job.file || n in FileIncludes(h, job.root, h.read(job.file).value, prefixes))
  }

  /** Some job of the walk contributes `n`. */
  ghost predicate ContributedBy(h: Host, jobs: seq<Job>, prefixes: seq<string>, n: string) {
    exists k :: 0 <= k < |jobs| && Contributes(h, jobs[k], prefixes, n)
  }

  lemma ContributedByCons(h: Host, jobs: seq<Job>, prefixes: seq<string>, n: string)
    requires |jobs| > 0
    ensures ContributedBy(h, jobs, prefixes, n) <==>
      Contributes(h, jobs[0], prefixes, n) || ContributedBy(h, jobs[1..], prefixes, n)
  {
    if ContributedBy(h, jobs, prefixes, n) {
      var k :| 0 <= k < |jobs| && Contributes(h, jobs[k], prefixes, n);
      if k > 0 {
        assert jobs[1..][k - 1] == jobs[k];
      }
    }
    if ContributedBy(h, jobs[1..], prefixes, n) {
      var k :| 0 <= k < |jobs[1..]| && Contributes(h, jobs[1..][k], prefixes, n);
      assert jobs[k + 1] == jobs[1..][k];
    }
  }

  /** Scanning a job adds exactly the names it contributes. */
  lemma StepNodes(h: Host, g: Graph, job: Job, prefixes: seq<string>)
    requires EnumeratesSets(h) && Readable(h, job)
    ensures forall n :: n in Step(h, g, job, prefixes).nodes <==> n in g.nodes || Contributes(h, job, prefixes, n)
  {
    if !h.isDirectory(job.file) {
      var includes := FileIncludes(h, job.root, h.read(job.file).value, prefixes);
      var neighbors := h.order(includes);
      assert forall x :: x in neighbors <==> x in includes;
      AddNodes(g, job.file, neighbors);
      assert Step(h, g, job, prefixes) == Add(g, job.file, neighbors);
    }
  }

  /** After a finished walk the nodes are exactly the starting nodes, the
      scanned files and the includes resolved from them: nothing else is added. */
  lemma {:induction false} ScanNodes(h: Host, g: Graph, jobs: seq<Job>, prefixes: seq<string>)
    requires EnumeratesSets(h)
    ensures var r := Scan(h, g, jobs, prefixes);
      r.Ok? ==> forall n :: n in r.value.nodes <==> n in g.nodes || ContributedBy(h, jobs, prefixes, n)
    decreases |jobs|
  {
    var r := Scan(h, g, jobs, prefixes);
    if |jobs| > 0 && r.Ok? {
      ScanUnfold(h, g, jobs, prefixes);
      var g' := Step(h, g, jobs[0], prefixes);
      assert r == Scan(h, g', jobs[1..], prefixes);
      StepNodes(h, g, jobs[0], prefixes);
      ScanNodes(h, g', jobs[1..], prefixes);
      forall n
        ensures n in r.value.nodes <==> n in g.nodes || ContributedBy(h, jobs, prefixes, n)
      {
        ContributedByCons(h, jobs, prefixes, n);
      }
    }
  }

  /** How many edges the walk appends: the include count of every scanned job. */
  function EdgeCount(h: Host, jobs: seq<Job>, prefixes: seq<string>): nat
    decreases |jobs|
  {
    if |jobs| == 0 then 0
    else (if Scanned(h, jobs[0]) then IncludeCount(h, jobs[0], prefixes) else 0) + EdgeCount(h, jobs[1..], prefixes)
  }

  /** `e` runs from the node of a scanned job's file to the node of one of the
      includes resolved from it. */
  ghost predicate EdgeOfJob(h: Host, g: Graph, job: Job, prefixes: seq<string>, e: Edge) {
    && Scanned(h, job)
    && job.file in g.nodes
    && e.source == g.nodes[job.file].id
    && exists x :: x in FileIncludes(h, job.root, h.read(job.file).value, prefixes)
        && x in g.nodes && e.target == g.nodes[x].id
  }

  /** `e` was appended for one of the jobs. */
  ghost predicate FromSomeJob(h: Host, g: Graph, jobs: seq<Job>, prefixes: seq<string>, e: Edge) {
    exists k :: 0 <= k < |jobs| && EdgeOfJob(h, g, jobs[k], prefixes, e)
  }

  /** Every edge from position `from` on was appended for one of the jobs. */
  ghost predicate EdgesFromJobs(h: Host, g: Graph, from: nat, jobs: seq<Job>, prefixes: seq<string>) {
    forall i :: from <= i < |g.edges| ==> FromSomeJob(h, g, jobs, prefixes, g.edges[i])
  }

  /** Scanning a job appends one edge per distinct include, each from the
      file's node to the include's node, and keeps the edges before them. */
  lemma StepEdges(h: Host, g: Graph, job: Job, prefixes: seq<string>)
    requires EnumeratesSets(h) && Readable(h, job)
    ensures var g' := Step(h, g, job, prefixes);
      && |g'.edges| == |g.edges| + (if Scanned(h, job) then IncludeCount(h, job, prefixes) else 0)
      && KeepsEdges(g.edges, g'.edges)
      && forall i :: |g.edges| <= i < |g'.edges| ==> EdgeOfJob(h, g', job, prefixes, g'.edges[i])
  {
    if !h.isDirectory(job.file) {
      var includes := FileIncludes(h, job.root, h.read(job.file).value, prefixes);
      var neighbors := h.order(includes);
      var g' := Step(h, g, job, prefixes);
      AddKeepsEdges(g, job.file, neighbors);
      AddNewEdges(g, job.file, neighbors);
      AddNodes(g, job.file, neighbors);
      forall i | |g.edges| <= i < |g'.edges|
        ensures EdgeOfJob(h, g', job, prefixes, g'.edges[i])
      {
        var x := neighbors[i - |g.edges|];
        assert x in includes && x in g'.nodes && g'.edges[i].target == g'.nodes[x].id;
      }
    }
  }

  /** After a finished walk, the appended edges number the include counts of
      the scanned jobs, and each runs from a scanned file's node to the node
      of one of that file's includes. */
  lemma {:induction false} ScanEdges(h: Host, g: Graph, jobs: seq<Job>, prefixes: seq<string>)
    requires EnumeratesSets(h)
    ensures var r := Scan(h, g, jobs, prefixes);
      r.Ok? ==> |r.value.edges| == |g.edges| + EdgeCount(h, jobs, prefixes)
    ensures var r := Scan(h, g, jobs, prefixes);
      r.Ok? ==> EdgesFromJobs(h, r.value, |g.edges|, jobs, prefixes)
    decreases |jobs|
  {
    var r := Scan(h, g, jobs, prefixes);
    if |jobs| > 0 && r.Ok? {
      ScanUnfold(h, g, jobs, prefixes);
      var g' := Step(h, g, jobs[0], prefixes);
      assert r == Scan(h, g', jobs[1..], prefixes);
      StepEdges(h, g, jobs[0], prefixes);
      ScanEdges(h, g', jobs[1..], prefixes);
      ScanGrows(h, g', jobs[1..], prefixes);
      EdgesFromJobsCons(h, g', r.value, |g.edges|, jobs, prefixes);
    }
  }

  /** The edges the first job appended, followed by those the rest appended. */
  lemma EdgesFromJobsCons(h: Host, g: Graph, r: Graph, from: nat, jobs: seq<Job>, prefixes: seq<string>)
    requires |jobs| > 0 && from <= |g.edges| && Grows(g, r)
    requires forall i :: from <= i < |g.edges| ==> EdgeOfJob(h, g, jobs[0], prefixes, g.edges[i])
    requires EdgesFromJobs(h, r, |g.edges|, jobs[1..], prefixes)
    ensures EdgesFromJobs(h, r, from, jobs, prefixes)
  {
  }

  /** A token that names a file next to the scan root resolves there, whatever
      prefixes follow. */
  lemma RootFirst(h: Host, root: string, token: string, prefixes: seq<string>)
    requires h.pathExists(Candidate(h, root, token))
    ensures TryPrefixes(h, token, SearchPath(root, prefixes)) == Candidate(h, root, token)
  {
  }

  /** Otherwise the configured prefixes are searched as if the root were not there. */
  lemma RootMissed(h: Host, root: string, token: string, prefixes: seq<string>)
    requires !h.pathExists(Candidate(h, root, token))
    ensures TryPrefixes(h, token, SearchPath(root, prefixes)) == TryPrefixes(h, token, prefixes)
  {
  }

  /** The prefixes the command line produces: the working directory first,
      then every `-I` prefix in order, then the empty prefix that lets a path
      stand for itself. */
  function CommandLinePrefixes(cwd: string, given: seq<string>): (r: seq<string>)
    ensures |r| == |given| + 2
    ensures r[0] == cwd && r[|r| - 1] == ""
    ensures forall i :: 0 <= i < |given| ==> r[i + 1] == given[i]
  {
    [cwd] + given + [""]
  }

  /** Because the empty prefix comes last, a token that names an existing path
      by itself always resolves to an existing path. */
  lemma EmptyPrefixResolves(h: Host, root: string, cwd: string, given: seq<string>, token: string)
    requires h.pathExists(Candidate(h, "", token))
    ensures h.pathExists(TryPrefixes(h, token, SearchPath(root, CommandLinePrefixes(cwd, given))))
  {
    var path := SearchPath(root, CommandLinePrefixes(cwd, given));
    assert path[|path| - 1] == "";
    assert Resolvable(h, token, path);
  }

  /** `walk(graph, args)`: scans every directory for every pattern. */
  function WalkTree(h: Host, g: Graph, directories: seq<string>, patterns: seq<string>,
                    prefixes: seq<string>): Result<Graph, string>
  {
    Scan(h, g, Jobs(h, directories, patterns), prefixes)
  }

  /** A walk from a fresh graph: it finishes exactly when every visited file
      can be read, and then yields a well-formed graph with the given settings
      whose nodes are exactly the scanned files and the includes resolved from
      them, each scanned file sized by the include count of its last scan, and
      whose edges are one per distinct include of every scan, from the file's
      node to the include's; otherwise it names the first file it could not read. */
  lemma WalkFromEmpty(h: Host, config: Config, directories: seq<string>, patterns: seq<string>,
                      prefixes: seq<string>)
    requires EnumeratesSets(h)
    ensures var jobs := Jobs(h, directories, patterns);
      var r := WalkTree(h, Empty(config), directories, patterns, prefixes);
      && (r.Ok? <==> AllReadable(h, jobs))
      && (r.Ok? ==>
            && r.value.config == config
            && WellFormed(r.value)
            && AllCovered(h, r.value, jobs, prefixes)
            && SizesFromLastScan(h, r.value, jobs, prefixes))
      && (r.Err? ==> exists k :: FirstUnreadable(h, jobs, k) && jobs[k].file == r.error)
    ensures var jobs := Jobs(h, directories, patterns);
      var r := WalkTree(h, Empty(config), directories, patterns, prefixes);
      r.Ok? ==> forall n :: n in r.value.nodes <==> ContributedBy(h, jobs, prefixes, n)
    ensures var jobs := Jobs(h, directories, patterns);
      var r := WalkTree(h, Empty(config), directories, patterns, prefixes);
      r.Ok? ==> |r.value.edges| == EdgeCount(h, jobs, prefixes) && EdgesFromJobs(h, r.value, 0, jobs, prefixes)
  {
    var jobs := Jobs(h, directories, patterns);
    WellFormedEmpty(config);
    ScanSucceeds(h, Empty(config), jobs, prefixes);
    ScanStops(h, Empty(config), jobs, prefixes);
    ScanGrows(h, Empty(config), jobs, prefixes);
    ScanCovers(h, Empty(config), jobs, prefixes);
    ScanSizes(h, Empty(config), jobs, prefixes);
    ScanNodes(h, Empty(config), jobs, prefixes);
    ScanEdges(h, Empty(config), jobs, prefixes);
  }
}

=== FILE: wrappers.dfy ===
/** Optional values and results with an error, used where the Python code returns
    `None` or raises. */
module Wrappers {

  /** A value that may be missing, like Python's `None`. */
  datatype Option<+T> = None | Some(value: T) {

    /** The carried value, or `default` when there is none (Python's `dict.get(k, default)`). */
    function GetOr(default: T): T {
      match this
      case Some(v) => v
      case None => default
    }
  }

  /** The outcome of a computation that can stop with an error. */
  datatype Result<+T, +E> = Ok(value: T) | Err(error: E)
}
